=== FILE: README.md ===
# TerraGrow terrace grid, in Dafny

TerraGrow is a browser dashboard for terrace gardens. The dashboard keeps a
terrace layout, which is a grid of 1 ft tiles, each plantable or not. It also
keeps the crops the user tracks, with their waterings. A form asks a hosted
language model to recommend crops, and the results view draws a layout of
those crops over the terrace grid.

Several pieces of the source are defined but not wired together:
- The terrace planner, the component that draws the plantable tiles, is not
  rendered by any file of the source.
- The dashboard passes its layout to the form, but the form's props do not
  include it.
- The layout request `layoutCrops` would place the crops on the grid, but
  nothing calls it.
- The results view reads `recommendations.layout`, but the recommendation
  service's output (`recommendCrops`) has only `crops`.

Each piece is modelled as written, on its own. The results view is modelled
for a given list of crops and a given list of placements. The parts that are
plain logic are:

- **Layout** (`layout.dfy`): the `TerraceLayout` record `{rows, cols, grid}`
  and `createEmptyLayout`. The record is used across the code but never
  declared, so it is defined here from its use.
- **Planner** (`planner.dfy`): the terrace planner's single-tile write
  `updateCell`, `clearGrid` and the resize behind `handleDimensionChange`. It
  also covers the drawing state machine (`isDrawing`, `tool`) driven by press,
  move and release events.
- **Tracking** (`tracking.dfy`): the dashboard's tracked-crop list with plant,
  water and remove, and the ids it generates.
- **Crops** (`crops.dfy`): the records the recommendation service returns, and
  `find` / `findIndex` by name.
- **Placement** (`placement.dfy`): the rules the layout request states for a
  layout, as the predicate `ValidLayout`. `Validate` checks those rules and
  reports each problem as a value. No code in the application checks the
  rules, so the checker is an addition and not a copy of existing code.
  `scenarios.dfy` works through five concrete batches: one valid layout, and one each for an overlap, an area past the edge, an unlisted name and an empty area.
- **GridEncoding** (`encoding.dfy`): how the layout request prints the grid,
  one line of `T`/`F` per row, with a decoder and a round-trip proof.
- **Results** (`results.dfy`): the crop colour lookup, the grid area of each
  overlay box, and the plant button state.
- **Weather** (`weather.dfy`): the simulated weather tool. It computes a
  32-bit wrapping string hash and reduces it to temperature, humidity and
  light level.

Everything is an immutable value, and every operation is a function from old
values to new ones. That makes it hold by construction that validation and
encoding read the grid, crops and layout without changing them.

The model follows the code in three places where stricter behaviour might be
expected:
- Dimensions are natural numbers and no operation rejects a zero dimension.
- The draw/erase tool can be switched while a stroke is in progress.
- A tile write with out-of-range coordinates is excluded by its precondition
  rather than reported as an error. Hit-testing only ever reports rendered
  tiles.

## Model

| member | source | states |
|---|---|---|
| `Layout.CreateEmptyLayout` | src/components/terragrow-dashboard.tsx:14-18 | the layout has `rows` rows of `cols` tiles and no plantable tile |
| `Layout.InitialLayout` | src/components/terragrow-dashboard.tsx:26 | the dashboard starts from a well-formed 15 × 15 layout with every tile clear |
| `Layout.EmptyLayoutUnique` | src/components/terragrow-dashboard.tsx:14-18 | any well-formed layout with no plantable tile equals the empty layout of its size |
| `Planner.SetCell` | src/components/terrace-planner.tsx:53-54 | the copied grid has the new value in the one tile and every other tile, and the size, unchanged |
| `Planner.UpdateCell` | src/components/terrace-planner.tsx:50-57 | nothing is emitted exactly when the tile already holds the tool's value; after the edit the tile holds `tool == draw`, and every other tile and both dimensions are unchanged |
| `Planner.UpdateCellIdempotent` | src/components/terrace-planner.tsx:52 | repeating a write with the same tool on the same tile emits nothing |
| `Planner.ClearGrid` | src/components/terrace-planner.tsx:59-62 | clearing keeps both dimensions and leaves a well-formed grid with every tile clear |
| `Planner.ClearGridIsEmptyLayout` | src/components/terrace-planner.tsx:59-62 | clearing a layout gives exactly the dashboard's empty layout of that size |
| `Planner.Resize` | src/components/terrace-planner.tsx:67-71 | the new grid is exactly `newRows × newCols`; a tile keeps its old value when it lies in the old grid and is clear otherwise |
| `Planner.HandleDimensionChange` | src/components/terrace-planner.tsx:64-73 | only the named dimension takes the slider value, the other keeps its old value, and tiles follow the resize rule |
| `Planner.ResizeToSameSizeIsIdentity` | src/components/terrace-planner.tsx:67-71 | resizing to the current size returns the same layout |
| `Planner.DimensionChangeToCurrentIsIdentity` | src/components/terrace-planner.tsx:64-73 | moving a slider to the value it already shows returns the same layout |
| `Planner.ResizeRoundTrip` | src/components/terrace-planner.tsx:67-71 | resizing away and back keeps exactly the tiles inside both overlaps; every tile cut off comes back clear |
| `Planner.GrowThenShrinkIsIdentity` | src/components/terrace-planner.tsx:67-71 | growing and then shrinking back to the old size returns the original layout |
| `Planner.PaintTarget` | src/components/terrace-planner.tsx:43-46 | with no tile under the cursor nothing changes; otherwise the tile found takes the tool's value, every other tile keeps its value, and the size is kept |
| `Planner.Step` | src/components/terrace-planner.tsx:24-73 | a move paints nothing unless drawing has started, and while drawing it paints the tile under the cursor and keeps drawing on; a press starts drawing and paints the pressed tile; a release or leave stops drawing and changes nothing else; tool buttons change only the tool; the trash button clears every tile; a slider event sets the named dimension to the slider value, keeps the other, keeps every tile inside both the old and new grid and clears the rest, and leaves drawing and tool alone; every event keeps the grid well formed and the dimensions in the slider range |
| `Planner.RunKeepsInvariant` | src/components/terrace-planner.tsx:80-98 | over any sequence of events the grid stays well formed and both dimensions stay between 5 and 25 |
| `Planner.InitialStateSatisfiesInvariant` | src/components/terrace-planner.tsx:20-21 | the planner starts not drawing, on a clear 15 × 15 grid within the slider range |
| `Planner.MovesPaintExactly` | src/components/terrace-planner.tsx:30-34 | while drawing, moves over a list of tiles set exactly those tiles to the tool's value and no others |
| `Planner.StrokePaintsExactly` | src/components/terrace-planner.tsx:24-38 | a press-drag-release stroke paints exactly the tiles it passes over and ends with drawing off |
| `Planner.DrawThenEraseClearsStroke` | src/components/terrace-planner.tsx:104-119 | drawing a stroke, choosing the eraser and repeating the stroke clears the stroke's tiles and leaves all others as they were |
| `Crops.FindIndex` | src/components/recommendation-results.tsx:32 | the result is -1 exactly when no crop has the name; otherwise it is the first index with that name |
| `Crops.FindCrop` | src/components/recommendation-results.tsx:130-131 | nothing is found exactly when no crop has the name; a found crop has that name and is in the list |
| `Crops.FindCropAtFindIndex` | src/components/recommendation-results.tsx:32 | `find` returns the crop at the index `findIndex` reports, and nothing when it reports -1 |
| `Tracking.IsPlanted` | src/components/terragrow-dashboard.tsx:30 | true exactly when some tracked crop has the name |
| `Tracking.MakeId` | src/components/terragrow-dashboard.tsx:35 | an id is the crop name, then `-`, then at least one decimal digit and nothing else |
| `Tracking.IdNameOfMakeId` | src/components/terragrow-dashboard.tsx:35 | the crop name can be read back from every generated id `name-time` |
| `Tracking.UniqueNamesGiveUniqueIds` | src/components/terragrow-dashboard.tsx:30-35 | when names are unique and each id was made from its crop's name, ids are unique too |
| `Tracking.HandlePlantCrop` | src/components/terragrow-dashboard.tsx:29-40 | an already tracked name leaves the list unchanged; otherwise exactly one entry is appended with the crop, its planting date, an empty log and the id `name-now`, whose name part is the crop's name; unique names and name-derived ids are preserved |
| `Tracking.HandleWaterCrop` | src/components/terragrow-dashboard.tsx:42-50 | length and order are kept; each entry with the id gains exactly the new timestamp at the end of its log; every other field and entry is unchanged |
| `Tracking.WaterKeepsInvariants` | src/components/terragrow-dashboard.tsx:42-50 | watering preserves unique names and name-derived ids |
| `Tracking.WaterAbsentIdIsIdentity` | src/components/terragrow-dashboard.tsx:44-47 | watering an id no entry has changes nothing |
| `Tracking.WaterAddsOnePerMatch` | src/components/terragrow-dashboard.tsx:46 | the total number of logged waterings grows by the number of entries carrying the id |
| `Tracking.HandleRemoveCrop` | src/components/terragrow-dashboard.tsx:52-54 | no entry with the id remains; every other entry remains, in order; the length drops by the number removed; removing an absent id is the identity |
| `Tracking.RemoveKeepsInvariants` | src/components/terragrow-dashboard.tsx:52-54 | removing preserves unique names and name-derived ids |
| `Placement.PositionIsTopLeft` | src/ai/flows/crop-recommendation.ts:121 | the area a placement occupies (`Occupies`: the first crop of its name laid down from its position) contains the position when the size is non-zero, and no occupied tile lies above or left of it |
| `Placement.ValidLayoutPlacesEveryCrop` | src/ai/flows/crop-recommendation.ts:120 | a valid layout has one placement per crop, and every crop of the list has a placement |
| `Placement.RectInGridIff` | src/ai/flows/crop-recommendation.ts:122 | the arithmetic bounds test holds exactly when every tile of the footprint is inside the grid |
| `Placement.ScanRect` | src/ai/flows/crop-recommendation.ts:122 | nothing is found exactly when every tile of the rectangle is plantable; a found tile lies in the rectangle and is not plantable |
| `Placement.PlacementViolations` | src/ai/flows/crop-recommendation.ts:121-125 | one placement yields no report exactly when its name is a listed crop, its position is a tile of its area (`CornerIsTile`, so the area is not empty), and its whole area is inside the grid and plantable; otherwise exactly one report: `UnknownCrop` for an unlisted name, `EmptyArea` for a listed crop whose position is not a tile of its area, `OutOfBounds` only when some occupied tile lies outside the grid, `UnplantableTile` only at an occupied, in-grid, non-plantable tile (`DescribesPlacement`) |
| `Placement.PlacementChecks` | src/ai/flows/crop-recommendation.ts:121-125 | the per-placement reports are empty exactly when every placement names a listed crop, has its position as a tile of its area, and lies on plantable tiles; every report describes some placement of the layout |
| `Placement.CountReport` | src/ai/flows/crop-recommendation.ts:120 | crop `i` gets a count report exactly when it is the first crop with its name and that name's counts disagree; the report carries that name and both true counts |
| `Placement.CountChecks` | src/ai/flows/crop-recommendation.ts:120 | no count report exactly when each listed name has as many placements as crops; every report names a listed crop with its true crop count and placement count, which differ (`DescribesCount`) |
| `Placement.PlacedOnceIff` | src/ai/flows/crop-recommendation.ts:120-125 | "each crop placed exactly once" holds exactly when names match and the per-name counts agree |
| `Placement.Intersection` | src/ai/flows/crop-recommendation.ts:123 | two rectangles share no tile exactly when nothing is returned; a returned tile lies in both |
| `Placement.SharedTile` | src/ai/flows/crop-recommendation.ts:123 | two placements' areas are disjoint exactly when no shared tile is returned |
| `Placement.OverlapsWith` | src/ai/flows/crop-recommendation.ts:123 | no report about placement `i` and the placements from `j` on exactly when none of them shares a tile with it; every report names placement `i`, some placement `k >= j`, and a tile both occupy (`OverlapAgainstLater`) |
| `Placement.OverlapChecks` | src/ai/flows/crop-recommendation.ts:123 | no overlap report exactly when the areas of all pairs of placements are disjoint; every report names the crops of a pair `a < b` and a tile both placements occupy (`OverlapAmong`) |
| `Placement.Validate` | src/ai/flows/crop-recommendation.ts:119-126 | the checker reports nothing exactly when `ValidLayout` holds: every crop placed once (rule 1), each position a tile of its area (rule 2), areas inside the grid on plantable tiles (rule 3), no two areas sharing a tile (rule 4), names matching the list (rule 6); and every report it gives is true of the layout (`Accurate`) |
| `PlacementScenarios.OneCropOnOpenGridIsValid` | src/ai/flows/crop-recommendation.ts:119-126 | one 1 × 1 crop at (0, 0) on a fully plantable 3 × 3 grid is valid |
| `PlacementScenarios.SameTileGivesOneOverlap` | src/ai/flows/crop-recommendation.ts:123 | two 1 × 1 crops both at (1, 1) give exactly one overlap report, naming both crops, at (1, 1) |
| `PlacementScenarios.FootprintPastEdgeIsOutOfBounds` | src/ai/flows/crop-recommendation.ts:122 | a 2 × 2 crop at (1, 1) on a 2 × 2 grid is reported out of bounds and nothing else |
| `PlacementScenarios.UnlistedNameIsUnknownCrop` | src/ai/flows/crop-recommendation.ts:125 | a placement naming no listed crop gives exactly one unknown-crop report |
| `PlacementScenarios.ZeroSizeCropHasNoArea` | src/ai/flows/crop-recommendation.ts:121 | a crop whose size rounds to 0 × 0, placed on the same tile as another crop, gives exactly one empty-area report and no overlap |
| `GridEncoding.EncodeRow` | src/ai/flows/crop-recommendation.ts:129 | a line has one character per tile, each `T` or `F`, and `T` exactly at the plantable tiles |
| `GridEncoding.LayoutLines` | src/ai/flows/crop-recommendation.ts:128-130 | one line per row, each of exactly `cols` characters, with `T` exactly where the tile is plantable |
| `GridEncoding.EncodeGridIsLines` | src/ai/flows/crop-recommendation.ts:128-130 | the printed text `EncodeGrid` is exactly the layout's `LayoutLines`, each followed by a line break |
| `GridEncoding.DecodeEncodeGrid` | src/ai/flows/crop-recommendation.ts:128-130 | decoding the printed grid gives back the grid |
| `GridEncoding.EncodingDeterminesGrid` | src/ai/flows/crop-recommendation.ts:128-130 | two grids that print the same text are equal |
| `Results.GetCropColor` | src/components/recommendation-results.tsx:31-34 | there is no palette colour exactly when the name is not in the crop list; otherwise the colour is an index inside the 10-entry palette |
| `Results.ColorOfListedCrop` | src/components/recommendation-results.tsx:24-34 | a listed crop gets colour `k mod 10`, where `k` is the first index of its name, so crops sharing a name share a colour |
| `Results.ColorOfFirstOccurrence` | src/components/recommendation-results.tsx:24-34 | the first crop of a name at index `i` gets colour `i mod 10` |
| `Results.OverlayArea` | src/components/recommendation-results.tsx:139-144 | a placement naming no crop gets no area; otherwise it starts at grid lines `row + 1`, `col + 1` and covers exactly the tiles the placement occupies |
| `Results.MatchedIsFilter` | src/components/recommendation-results.tsx:130-131 | `Matched` keeps exactly the placements whose name is a listed crop |
| `Results.RenderedOverlays` | src/components/recommendation-results.tsx:129-131 | one box is drawn per placement that names a crop (`Matched`); the rest draw nothing |
| `Results.OverlaysDrawMatched` | src/components/recommendation-results.tsx:129-144 | the `k`-th box belongs to the `k`-th matching placement: it has that placement's name, the area `OverlayArea` gives it, and `getCropColor` of its name, which is defined |
| `Results.OverlaysWhenNamesMatch` | src/components/recommendation-results.tsx:129-144 | when every placement names a crop, one box is drawn per placement, in order, with that placement's area |
| `Results.ValidLayoutRendersCleanly` | src/components/recommendation-results.tsx:129-150 | for a valid layout every placement is drawn; each box spans grid lines `1 <= start < end <= tracks + 1` in both directions, so CSS places it on exactly the tiles `Covers` names, all inside the grid; and no two boxes cover a common tile |
| `Results.PlantButtonDisabled` | src/components/recommendation-results.tsx:161 | the button is disabled exactly when some tracked crop has the card's name |
| `Results.DisabledExactlyWhenPlantingIsNoop` | src/components/recommendation-results.tsx:199 | the plant button is disabled exactly when planting that crop would leave the tracked list unchanged |
| `Weather.ToInt32` | src/ai/flows/weather-flow.ts:28 | `|= 0` yields a signed 32-bit integer and leaves a 32-bit value unchanged |
| `Weather.ShiftLeft5Multiplies` | src/ai/flows/weather-flow.ts:27 | on a 32-bit value, `ShiftLeft5` (`hash << 5`) is a 32-bit value equal to `32 * hash` up to a multiple of 2^32 |
| `Weather.HashStep` | src/ai/flows/weather-flow.ts:27-28 | after every loop round the hash is a signed 32-bit integer |
| `Weather.Hash` | src/ai/flows/weather-flow.ts:24-29 | the hash of every city is a signed 32-bit integer |
| `Weather.ComputeHash` | src/ai/flows/weather-flow.ts:24-29 | the loop computes the left fold of the round over the city's code units and ends with a signed 32-bit integer |
| `Weather.HashIsPolynomial` | src/ai/flows/weather-flow.ts:24-29 | the hash is `sum city[k] * 31^(n-1-k)` reduced to signed 32 bits |
| `Weather.Temperature` | src/ai/flows/weather-flow.ts:31 | temperature is between 20 and 34 |
| `Weather.Humidity` | src/ai/flows/weather-flow.ts:32 | humidity is between 40 and 84 |
| `Weather.LightIndexAsWritten` | src/ai/flows/weather-flow.ts:33 | the light index is 0, 1 or 2 |
| `Weather.WeatherAsWritten` | src/ai/flows/weather-flow.ts:22-41 | the tool as written reports a temperature in 20..34 and a humidity in 40..84 for every city |
| `Weather.GetWeather` | src/ai/flows/weather-flow.ts:22-41 | with the corrected light index, temperature and humidity are as written and within range |
| `Weather.LightAlwaysLowAsWritten` | src/ai/flows/weather-flow.ts:33-34 | the tool as written reports `Low` light for every city |
| `Weather.EveryLightLevelOccurs` | src/ai/flows/weather-flow.ts:33-34 | with the corrected index, the cities "c", "a" and "b" read Low, Medium and Bright |
| `Weather.EmptyCityWeather` | src/ai/flows/weather-flow.ts:22-40 | an empty city hashes to 0 and reads (20, 40, Low) |

## Left out

- Hit-testing (`updateCellFromEvent`, `document.elementFromPoint`, terrace-planner.tsx:40-48) is not modelled. An event carries the tile it landed on, or no tile.
- Out-of-range coordinates are not modelled. `Planner.UpdateCell` requires them in bounds because hit-testing only reports rendered tiles. In JavaScript a row outside the grid would throw. A column past the end would lengthen a row. A negative column would set a property that is not an element.
- React's state scheduling is not modelled. Each event is applied to the state left by the previous one, as if every `onChange` had re-rendered before the next event.
- Presentation is left out: JSX, cards, skeletons, accordions, toasts and CSS classes. The palette is modelled as its index only.
- Remote model calls are left out: `recommendCrops`, `layoutCrops`, `chat.ts`, `generate-image.ts` and the prompt/flow wrappers in weather-flow.ts:45-69. The recommendation output is taken as given crops and placements. The service's output has no placements, so `recommendations.layout` at recommendation-results.tsx:129 is undefined; the model does not follow the view into that case.
- The shade rule (crop-recommendation.ts:124) is advice with no checkable meaning.
- Plant sizes are whole numbers of cells, i.e. the values after `Math.round`. Floating-point feet, negative sizes and the form's area product are not modelled. A size that rounds to 0 is kept and occupies no tile. Such a placement has no top-left tile, so the checker reports it as an empty area.
- Positions are whole numbers. The output schema accepts any JSON number for a row or column, and the overlay adds 1 to it for a CSS grid line. Fractional positions are not modelled.
- Clock readings are not modelled. `new Date()` values are passed in as `now`, `plantedDate` and `wateredAt`, and `getTime()` is taken to be non-negative.
- Prompt whitespace is not modelled. `GridEncoding` covers the `T`/`F` content of the template's lines and their line breaks, but not the indentation Handlebars adds.
- Crop-list views are left out: `crop-tracker.tsx` (including its `slice(-14)` display), `sensor-display.tsx`, `recommendation-form.tsx` and `crop-image.tsx`.
- Application glue is left out: `page.tsx` and `weather-schema.ts`. Weather output is modelled directly as a record with a three-valued light level.
- `Results.GetCropColor`: the case where `recommendations` is null (index -1 from `?? -1`) is not modelled. The results view returns before drawing colours in that case.
- `Placement.Validate` reports one problem per placement, the first that applies in this order: unknown name, empty area, area leaving the grid, first non-plantable tile in row-major order. Overlaps are reported once per pair, at the top-left shared tile. Count mismatches are reported once per name.

## Findings

| source | as written | input that shows it | evidently intended | confidence | as-written member | corrected member |
|---|---|---|---|---|---|---|
| src/ai/flows/weather-flow.ts:33 | `Math.abs(hash * 3) % 3` is always 0 because `hash * 3` is a multiple of 3, so `lightLevel` is always `'Low'` | any city, e.g. "a" (hash 97; 291 % 3 = 0) | a light index read from the hash that varies by city, `Math.abs(hash) % 3` | high; not executed | `Weather.LightAlwaysLowAsWritten` | `Weather.GetWeather` (with `Weather.EveryLightLevelOccurs`) |

=== FILE: crops.dfy ===
/**
 * The records the recommendation service returns: recommended crops, and
 * placements of those crops on the terrace grid.
 */
module Crops {
  import opened Wrappers

  /**
   * The mature size of a plant in whole grid cells. The service reports feet
   * as JSON numbers; the renderer rounds them with `Math.round`, and these are
   * the rounded values. A size may round to 0, which occupies no cell.
   */
  datatype PlantSize = PlantSize(width: nat, height: nat)

  datatype RecommendedCrop = RecommendedCrop(
    name: string,
    season: string,
    careTips: string,
    estimatedYield: string,
    plantSize: PlantSize)

  /**
   * Top-left tile of a placed plant. The output schema accepts any JSON number
   * here; the model keeps whole numbers, negative ones included, and leaves
   * fractional positions out.
   */
  datatype Position = Position(row: int, col: int)

  datatype CropPlacement = CropPlacement(cropName: string, position: Position)

  /** What the results view receives: the crops and their placements. */
  datatype CropRecommendationAndLayoutOutput = CropRecommendationAndLayoutOutput(
    crops: seq<RecommendedCrop>,
    layout: seq<CropPlacement>)

  predicate HasCrop(crops: seq<RecommendedCrop>, name: string) {
    exists i :: 0 <= i < |crops| && crops[i].name == name
  }

  /** `crops.findIndex(c => c.name === name)`: the first index with that name, or -1. */
  function FindIndex(crops: seq<RecommendedCrop>, name: string): (k: int)
    ensures -1 <= k < |crops|
    ensures k == -1 <==> !HasCrop(crops, name)
    ensures k >= 0 ==> crops[k].name == name && forall j :: 0 <= j < k ==> crops[j].name != name
  {
    if |crops| == 0 then -1
    else if crops[0].name == name then 0
    else
      var k := FindIndex(crops[1..], name);
      assert forall j :: 1 <= j < |crops| ==> crops[j] == crops[1..][j - 1];
      if k == -1 then -1 else k + 1
  }

  /** `crops.find(c => c.name === name)`: the first crop with that name, if any. */
  function FindCrop(crops: seq<RecommendedCrop>, name: string): (found: Option<RecommendedCrop>)
    ensures found.None? <==> !HasCrop(crops, name)
    ensures found.Some? ==> found.value.name == name && found.value in crops
  {
    if |crops| == 0 then None
    else if crops[0].name == name then Some(crops[0])
    else
      assert forall j :: 1 <= j < |crops| ==> crops[j] == crops[1..][j - 1];
      FindCrop(crops[1..], name)
  }

  /** `find` returns the element at the index `findIndex` reports. */
  lemma {:induction false} FindCropAtFindIndex(crops: seq<RecommendedCrop>, name: string)
    ensures FindCrop(crops, name) ==
      (if FindIndex(crops, name) == -1 then None else Some(crops[FindIndex(crops, name)]))
  {
    if |crops| > 0 && crops[0].name != name {
      FindCropAtFindIndex(crops[1..], name);
    }
  }

  /** The crop at the first index of a name answers every lookup of that name. */
  lemma FindCropFirst(crops: seq<RecommendedCrop>, i: nat)
    requires i < |crops|
    requires forall j :: 0 <= j < i ==> crops[j].name != crops[i].name
    ensures FindIndex(crops, crops[i].name) == i
    ensures FindCrop(crops, crops[i].name) == Some(crops[i])
  {
    FindCropAtFindIndex(crops, crops[i].name);
  }
}

=== FILE: encoding.dfy ===
/**
 * How the layout request prints the terrace grid for the service: one line
 * per row, `T` for a plantable tile and `F` for any other.
 */
module GridEncoding {
  import opened Wrappers
  import opened Layout

  function EncodeTile(plantable: bool): char {
    if plantable then 'T' else 'F'
  }

  /** One row of tiles as one line of `T`/`F` characters. */
  function EncodeRow(row: seq<bool>): (line: string)
    ensures |line| == |row|
    ensures forall k :: 0 <= k < |row| ==> (line[k] == 'T' || line[k] == 'F') && (line[k] == 'T' <==> row[k])
  {
    seq(|row|, k requires 0 <= k < |row| => EncodeTile(row[k]))
  }

  /** The whole grid, row by row, each line ended by a line break. */
  function EncodeGrid(grid: seq<seq<bool>>): string {
    if |grid| == 0 then "" else EncodeRow(grid[0]) + "\n" + EncodeGrid(grid[1..])
  }

  /** The lines printed for a layout. */
  function LayoutLines(l: TerraceLayout): (lines: seq<string>)
    requires WellFormed(l)
    ensures |lines| == l.rows
    ensures forall r :: 0 <= r < l.rows ==> |lines[r]| == l.cols
    ensures forall r, c :: 0 <= r < l.rows && 0 <= c < l.cols ==> (lines[r][c] == 'T' <==> Cell(l, r, c))
  {
    EncodeRows(l.grid)
  }

  /** Lines joined into one text, each followed by a line break. */
  function JoinLines(lines: seq<string>): string {
    if |lines| == 0 then "" else lines[0] + "\n" + JoinLines(lines[1..])
  }

  /** Each row of the grid encoded as a line. */
  function EncodeRows(grid: seq<seq<bool>>): (lines: seq<string>)
    ensures |lines| == |grid| && forall k :: 0 <= k < |grid| ==> lines[k] == EncodeRow(grid[k])
  {
    seq(|grid|, k requires 0 <= k < |grid| => EncodeRow(grid[k]))
  }

  /** The printed grid is the encoded rows, each followed by a line break. */
  lemma {:induction false} EncodeGridJoinsRows(grid: seq<seq<bool>>)
    ensures EncodeGrid(grid) == JoinLines(EncodeRows(grid))
  {
    if |grid| > 0 {
      EncodeGridJoinsRows(grid[1..]);
      assert EncodeRows(grid)[1..] == EncodeRows(grid[1..]);
    }
  }

  /** The text printed for a layout is its `LayoutLines`, one per row, each ended by a line break. */
  lemma EncodeGridIsLines(l: TerraceLayout)
    requires WellFormed(l)
    ensures EncodeGrid(l.grid) == JoinLines(LayoutLines(l))
  {
    EncodeGridJoinsRows(l.grid);
  }

  /**
   * Reads printed text back into rows; `current` holds the tiles of the line
   * being read. Characters other than `T`, `F` and line breaks, and a last
   * line without its line break, are errors.
   */
  function DecodeLines(text: string, current: seq<bool>): Option<seq<seq<bool>>>
    decreases |text|
  {
    if |text| == 0 then (if |current| == 0 then Some([]) else None)
    else if text[0] == '\n' then
      match DecodeLines(text[1..], [])
      case None => None
      case Some(rows) => Some([current] + rows)
    else if text[0] == 'T' then DecodeLines(text[1..], current + [true])
    else if text[0] == 'F' then DecodeLines(text[1..], current + [false])
    else None
  }

  function DecodeGrid(text: string): Option<seq<seq<bool>>> {
    DecodeLines(text, [])
  }

  /** Reading one printed line adds exactly that row in front of the rows that follow. */
  lemma {:induction false} DecodeEncodedRow(row: seq<bool>, current: seq<bool>, rest: string)
    ensures DecodeLines(EncodeRow(row) + "\n" + rest, current) ==
      match DecodeLines(rest, [])
      case None => None
      case Some(rows) => Some([current + row] + rows)
    decreases |row|
  {
    var text := EncodeRow(row) + "\n" + rest;
    if |row| == 0 {
      assert text == "\n" + rest;
      assert text[1..] == rest;
      assert current + row == current;
    } else {
      assert text[0] == EncodeTile(row[0]);
      assert text[1..] == EncodeRow(row[1..]) + "\n" + rest;
      DecodeEncodedRow(row[1..], current + [row[0]], rest);
      assert current + [row[0]] + row[1..] == current + row;
    }
  }

  /** Printing a grid and reading it back gives the same grid. */
  lemma {:induction false} DecodeEncodeGrid(grid: seq<seq<bool>>)
    ensures DecodeGrid(EncodeGrid(grid)) == Some(grid)
  {
    if |grid| > 0 {
      DecodeEncodeGrid(grid[1..]);
      DecodeEncodedRow(grid[0], [], EncodeGrid(grid[1..]));
      assert [] + grid[0] == grid[0];
      assert [grid[0]] + grid[1..] == grid;
    }
  }

  /** Two layouts that print the same text have the same tiles. */
  lemma EncodingDeterminesGrid(a: TerraceLayout, b: TerraceLayout)
    requires EncodeGrid(a.grid) == EncodeGrid(b.grid)
    ensures a.grid == b.grid
  {
    DecodeEncodeGrid(a.grid);
    DecodeEncodeGrid(b.grid);
  }
}

=== FILE: layout.dfy ===
/**
 * The terrace layout shared by the planner, the dashboard and the results view
 * (`TerraceLayout = {rows, cols, grid}`): a `rows × cols` matrix of tiles, where
 * `grid[r][c]` is true when tile (r, c) is a plantable 1 ft square.
 */
module Layout {

  datatype TerraceLayout = TerraceLayout(rows: nat, cols: nat, grid: seq<seq<bool>>)

  /** A tile address, row first. */
  datatype Coord = Coord(row: int, col: int)

  /** The dashboard starts from a 15 × 15 layout. */
  const InitialRows: nat := 15
  const InitialCols: nat := 15

  /** The grid really has `rows` rows of `cols` tiles each. */
  predicate WellFormed(l: TerraceLayout) {
    && |l.grid| == l.rows
    && forall r :: 0 <= r < |l.grid| ==> |l.grid[r]| == l.cols
  }

  predicate InBounds(l: TerraceLayout, r: int, c: int) {
    0 <= r < l.rows && 0 <= c < l.cols
  }

  function Cell(l: TerraceLayout, r: int, c: int): bool
    requires WellFormed(l) && InBounds(l, r, c)
  {
    l.grid[r][c]
  }

  /** No tile is plantable. */
  predicate AllClear(l: TerraceLayout)
    requires WellFormed(l)
  {
    forall r, c :: 0 <= r < l.rows && 0 <= c < l.cols ==> !Cell(l, r, c)
  }

  /** Two layouts agree on their size and on every tile. */
  predicate SameTiles(a: TerraceLayout, b: TerraceLayout)
    requires WellFormed(a) && WellFormed(b)
  {
    && a.rows == b.rows && a.cols == b.cols
    && forall r, c :: 0 <= r < a.rows && 0 <= c < a.cols ==> Cell(a, r, c) == Cell(b, r, c)
  }

  /** `createEmptyLayout(rows, cols)`: every tile not plantable. */
  function CreateEmptyLayout(rows: nat, cols: nat): (l: TerraceLayout)
    ensures WellFormed(l)
    ensures l.rows == rows && l.cols == cols
    ensures AllClear(l)
  {
    TerraceLayout(rows, cols, seq(rows, _ => seq(cols, _ => false)))
  }

  /** The layout the dashboard starts with. */
  function InitialLayout(): (l: TerraceLayout)
    ensures WellFormed(l)
    ensures l.rows == 15 && l.cols == 15
    ensures AllClear(l)
  {
    CreateEmptyLayout(InitialRows, InitialCols)
  }

  /** Layouts are values: agreeing on size and on every tile makes them equal. */
  lemma {:induction false} SameTilesEqual(a: TerraceLayout, b: TerraceLayout)
    requires WellFormed(a) && WellFormed(b)
    requires SameTiles(a, b)
    ensures a == b
  {
    assert |a.grid| == |b.grid|;
    forall r | 0 <= r < |a.grid|
      ensures a.grid[r] == b.grid[r]
    {
      assert |a.grid[r]| == |b.grid[r]|;
      forall c | 0 <= c < |a.grid[r]|
        ensures a.grid[r][c] == b.grid[r][c]
      {
        assert Cell(a, r, c) == Cell(b, r, c);
      }
    }
  }

  /** Two empty layouts of one size are the same layout. */
  lemma EmptyLayoutUnique(l: TerraceLayout)
    requires WellFormed(l) && AllClear(l)
    ensures l == CreateEmptyLayout(l.rows, l.cols)
  {
    SameTilesEqual(l, CreateEmptyLayout(l.rows, l.cols));
  }
}

=== FILE: placement.dfy ===
/**
 * The rules a crop layout must obey, and a checker for them.
 *
 * The layout request (crop-recommendation.ts) asks the service for a
 * placement of every crop and states the rules in its prompt: each crop
 * placed exactly once, the position is the top-left tile of the plant's area,
 * the area lies on plantable tiles, areas do not overlap, and names match the
 * input exactly. The shade rule is advice and is not checked here. Nothing in
 * the application checks the others; `ValidLayout` states them and
 * `Validate` checks them, reporting every problem as a value.
 */
module Placement {
  import opened Wrappers
  import opened Layout
  import opened Crops

  // ---------------------------------------------------------------------------
  // Occupied tiles

  /** Tile (r, c) lies in the `size` rectangle whose top-left tile is `p`. */
  predicate InRect(p: Position, size: PlantSize, r: int, c: int) {
    p.row <= r < p.row + size.height && p.col <= c < p.col + size.width
  }

  /**
   * The tiles a placement occupies: the footprint of the first crop with its
   * name, laid down from its position. A placement naming no crop occupies nothing.
   */
  predicate Occupies(crops: seq<RecommendedCrop>, pl: CropPlacement, r: int, c: int) {
    var found := FindCrop(crops, pl.cropName);
    found.Some? && InRect(pl.position, found.value.plantSize, r, c)
  }

  /** The position is the top-left tile of the occupied area. */
  lemma PositionIsTopLeft(crops: seq<RecommendedCrop>, pl: CropPlacement)
    requires HasCrop(crops, pl.cropName)
    ensures var size := FindCrop(crops, pl.cropName).value.plantSize;
      size.width > 0 && size.height > 0 ==> Occupies(crops, pl, pl.position.row, pl.position.col)
    ensures forall r, c :: Occupies(crops, pl, r, c) ==> pl.position.row <= r && pl.position.col <= c
  {
  }

  /** Two placements claim a common tile. */
  ghost predicate Clash(crops: seq<RecommendedCrop>, a: CropPlacement, b: CropPlacement) {
    exists r, c :: Occupies(crops, a, r, c) && Occupies(crops, b, r, c)
  }

  // ---------------------------------------------------------------------------
  // The rules

  function CropNames(crops: seq<RecommendedCrop>): (names: seq<string>)
    ensures |names| == |crops| && forall i :: 0 <= i < |crops| ==> names[i] == crops[i].name
  {
    seq(|crops|, i requires 0 <= i < |crops| => crops[i].name)
  }

  function PlacementNames(layout: seq<CropPlacement>): (names: seq<string>)
    ensures |names| == |layout| && forall i :: 0 <= i < |layout| ==> names[i] == layout[i].cropName
  {
    seq(|layout|, i requires 0 <= i < |layout| => layout[i].cropName)
  }

  /** Rule 1: every crop of the list is placed exactly once. */
  predicate EachCropPlacedOnce(crops: seq<RecommendedCrop>, layout: seq<CropPlacement>) {
    multiset(PlacementNames(layout)) == multiset(CropNames(crops))
  }

  /** Rule 6: every placement names a crop of the list exactly. */
  predicate NamesMatch(crops: seq<RecommendedCrop>, layout: seq<CropPlacement>) {
    forall i :: 0 <= i < |layout| ==> HasCrop(crops, layout[i].cropName)
  }

  /**
   * Rule 2 for one placement: the position is a tile of the plant's area (and,
   * by `PositionIsTopLeft`, its top-left one), so the area has at least one tile.
   */
  predicate CornerIsTile(crops: seq<RecommendedCrop>, pl: CropPlacement) {
    Occupies(crops, pl, pl.position.row, pl.position.col)
  }

  /** Rule 3 for one placement: its area is inside the grid and plantable throughout. */
  ghost predicate OnPlantable(grid: TerraceLayout, crops: seq<RecommendedCrop>, pl: CropPlacement)
    requires WellFormed(grid)
  {
    forall r, c :: Occupies(crops, pl, r, c) ==> InBounds(grid, r, c) && Cell(grid, r, c)
  }

  /** Rule 4: the areas of different placements do not overlap. */
  ghost predicate Disjoint(crops: seq<RecommendedCrop>, layout: seq<CropPlacement>) {
    forall i, j :: 0 <= i < j < |layout| ==> !Clash(crops, layout[i], layout[j])
  }

  /** A layout that obeys rules 1, 2, 3, 4 and 6. */
  ghost predicate ValidLayout(grid: TerraceLayout, crops: seq<RecommendedCrop>, layout: seq<CropPlacement>)
    requires WellFormed(grid)
  {
    && EachCropPlacedOnce(crops, layout)
    && NamesMatch(crops, layout)
    && (forall i :: 0 <= i < |layout| ==> CornerIsTile(crops, layout[i]))
    && (forall i :: 0 <= i < |layout| ==> OnPlantable(grid, crops, layout[i]))
    && Disjoint(crops, layout)
  }

  /** In a valid layout there are as many placements as crops, and every crop has one. */
  lemma ValidLayoutPlacesEveryCrop(grid: TerraceLayout, crops: seq<RecommendedCrop>, layout: seq<CropPlacement>)
    requires WellFormed(grid) && ValidLayout(grid, crops, layout)
    ensures |layout| == |crops|
    ensures forall k :: 0 <= k < |crops| ==> exists i :: 0 <= i < |layout| && layout[i].cropName == crops[k].name
  {
    var P, C := PlacementNames(layout), CropNames(crops);
    assert |multiset(P)| == |P| && |multiset(C)| == |C|;
    forall k | 0 <= k < |crops|
      ensures exists i :: 0 <= i < |layout| && layout[i].cropName == crops[k].name
    {
      assert C[k] in multiset(C);
      assert crops[k].name in P;
    }
  }

  // ---------------------------------------------------------------------------
  // The checker

  datatype Violation =
    | UnknownCrop(cropName: string)
    | EmptyArea(cropName: string)
    | PlacementCount(cropName: string, expected: nat, actual: nat)
    | OutOfBounds(cropName: string)
    | UnplantableTile(cropName: string, row: int, col: int)
    | Overlap(first: string, second: string, row: int, col: int)

  /** The rectangle lies inside the grid; an area of zero tiles always does. */
  predicate RectInGrid(grid: TerraceLayout, p: Position, size: PlantSize) {
    || size.height == 0 || size.width == 0
    || (0 <= p.row && p.row + size.height <= grid.rows && 0 <= p.col && p.col + size.width <= grid.cols)
  }

  lemma RectInGridIff(grid: TerraceLayout, p: Position, size: PlantSize)
    ensures RectInGrid(grid, p, size) <==> forall r, c :: InRect(p, size, r, c) ==> InBounds(grid, r, c)
  {
    if size.height > 0 && size.width > 0 && !RectInGrid(grid, p, size) {
      assert InRect(p, size, p.row, p.col);
      assert InRect(p, size, p.row + size.height - 1, p.col + size.width - 1);
    }
  }

  /** The first column in `[c, colEnd)` of row `r` whose tile is not plantable. */
  function ScanRow(grid: TerraceLayout, r: int, c: int, colEnd: int): (found: Option<int>)
    requires WellFormed(grid) && 0 <= r < grid.rows && 0 <= c && colEnd <= grid.cols
    ensures found.None? <==> forall j :: c <= j < colEnd ==> Cell(grid, r, j)
    ensures found.Some? ==> c <= found.value < colEnd && !Cell(grid, r, found.value)
    decreases colEnd - c
  {
    if c >= colEnd then None
    else if !grid.grid[r][c] then
      assert !Cell(grid, r, c);
      Some(c)
    else ScanRow(grid, r, c + 1, colEnd)
  }

  /** The first tile, row by row, of the rectangle `[r, rowEnd) × [c, colEnd)` that is not plantable. */
  function ScanRect(grid: TerraceLayout, r: int, rowEnd: int, c: int, colEnd: int): (found: Option<Coord>)
    requires WellFormed(grid) && 0 <= r && rowEnd <= grid.rows && 0 <= c && colEnd <= grid.cols
    ensures found.None? <==> forall i, j :: r <= i < rowEnd && c <= j < colEnd ==> Cell(grid, i, j)
    ensures found.Some? ==>
      && r <= found.value.row < rowEnd && c <= found.value.col < colEnd
      && !Cell(grid, found.value.row, found.value.col)
    decreases rowEnd - r
  {
    if r >= rowEnd then None
    else match ScanRow(grid, r, c, colEnd)
      case Some(j) => Some(Coord(r, j))
      case None => ScanRect(grid, r + 1, rowEnd, c, colEnd)
  }

  /**
   * What a report about placement `pl` claims: the name does not resolve; or it
   * resolves but the area has no tile; or the area has a tile outside the grid;
   * or the reported tile is occupied, inside the grid and not plantable.
   */
  ghost predicate DescribesPlacement(grid: TerraceLayout, crops: seq<RecommendedCrop>, pl: CropPlacement, v: Violation)
    requires WellFormed(grid)
  {
    match v
    case UnknownCrop(name) => name == pl.cropName && !HasCrop(crops, name)
    case EmptyArea(name) => name == pl.cropName && HasCrop(crops, name) && !CornerIsTile(crops, pl)
    case OutOfBounds(name) =>
      && name == pl.cropName && CornerIsTile(crops, pl)
      && exists r, c :: Occupies(crops, pl, r, c) && !InBounds(grid, r, c)
    case UnplantableTile(name, r, c) =>
      name == pl.cropName && Occupies(crops, pl, r, c) && InBounds(grid, r, c) && !Cell(grid, r, c)
    case _ => false
  }

  /**
   * Problems with one placement on its own: an unknown name, an area of no
   * tiles, an area leaving the grid, or else the first tile of its area that is
   * not plantable.
   */
  function PlacementViolations(grid: TerraceLayout, crops: seq<RecommendedCrop>, pl: CropPlacement)
    : (vs: seq<Violation>)
    requires WellFormed(grid)
    ensures |vs| <= 1
    ensures vs == [] <==>
      HasCrop(crops, pl.cropName) && CornerIsTile(crops, pl) && OnPlantable(grid, crops, pl)
    ensures !HasCrop(crops, pl.cropName) ==> vs == [UnknownCrop(pl.cropName)]
    ensures HasCrop(crops, pl.cropName) && !CornerIsTile(crops, pl) ==> vs == [EmptyArea(pl.cropName)]
    ensures forall v :: v in vs ==> DescribesPlacement(grid, crops, pl, v)
  {
    match FindCrop(crops, pl.cropName)
    case None => [UnknownCrop(pl.cropName)]
    case Some(crop) =>
      var p, size := pl.position, crop.plantSize;
      RectInGridIff(grid, p, size);
      if size.height == 0 || size.width == 0 then [EmptyArea(pl.cropName)]
      else if !RectInGrid(grid, p, size) then
        assert Occupies(crops, pl, p.row, p.col);
        [OutOfBounds(pl.cropName)]
      else match ScanRect(grid, p.row, p.row + size.height, p.col, p.col + size.width)
        case None => []
        case Some(at) =>
          assert Occupies(crops, pl, at.row, at.col);
          [UnplantableTile(pl.cropName, at.row, at.col)]
  }

  /** `v` describes some placement of the layout. */
  ghost predicate PlacementReport(grid: TerraceLayout, crops: seq<RecommendedCrop>, layout: seq<CropPlacement>, v: Violation)
    requires WellFormed(grid)
  {
    exists i :: 0 <= i < |layout| && DescribesPlacement(grid, crops, layout[i], v)
  }

  /**
   * Reports about the first placement, followed by reports about placements of
   * the rest of the layout, are all reports about placements of the layout.
   */
  lemma PlacementReportsExtend(
    grid: TerraceLayout, crops: seq<RecommendedCrop>, layout: seq<CropPlacement>, head: seq<Violation>, rest: seq<Violation>)
    requires WellFormed(grid) && |layout| > 0
    requires forall v :: v in head ==> DescribesPlacement(grid, crops, layout[0], v)
    requires forall v :: v in rest ==> PlacementReport(grid, crops, layout[1..], v)
    ensures forall v :: v in head + rest ==> PlacementReport(grid, crops, layout, v)
  {
    forall v | v in head + rest
      ensures PlacementReport(grid, crops, layout, v)
    {
      if v !in head {
        var i :| 0 <= i < |layout[1..]| && DescribesPlacement(grid, crops, layout[1..][i], v);
        assert layout[1..][i] == layout[i + 1];
      }
    }
  }

  /** Per-placement problems, in placement order; each describes the placement it is about. */
  function PlacementChecks(grid: TerraceLayout, crops: seq<RecommendedCrop>, layout: seq<CropPlacement>)
    : (vs: seq<Violation>)
    requires WellFormed(grid)
    ensures vs == [] <==> forall i :: 0 <= i < |layout| ==>
      HasCrop(crops, layout[i].cropName) && CornerIsTile(crops, layout[i]) && OnPlantable(grid, crops, layout[i])
    ensures forall v :: v in vs ==> PlacementReport(grid, crops, layout, v)
  {
    if |layout| == 0 then []
    else
      assert forall i :: 1 <= i < |layout| ==> layout[i] == layout[1..][i - 1];
      var head, rest := PlacementViolations(grid, crops, layout[0]), PlacementChecks(grid, crops, layout[1..]);
      PlacementReportsExtend(grid, crops, layout, head, rest);
      head + rest
  }

  /** The number of placements and of crops carrying the name agree. */
  predicate CountsAgree(crops: seq<RecommendedCrop>, layout: seq<CropPlacement>, name: string) {
    multiset(PlacementNames(layout))[name] == multiset(CropNames(crops))[name]
  }

  /** What a count report claims: a listed name whose crops and placements differ in number. */
  predicate DescribesCount(crops: seq<RecommendedCrop>, layout: seq<CropPlacement>, v: Violation) {
    && v.PlacementCount?
    && HasCrop(crops, v.cropName)
    && v.expected == multiset(CropNames(crops))[v.cropName]
    && v.actual == multiset(PlacementNames(layout))[v.cropName]
    && v.expected != v.actual
  }

  /**
   * The count report for crop `i`: one report when it is the first crop with its
   * name and that name's crops and placements differ in number, none otherwise.
   */
  function CountReport(crops: seq<RecommendedCrop>, layout: seq<CropPlacement>, i: nat): (vs: seq<Violation>)
    requires i < |crops|
    ensures vs == [] <==> FindIndex(crops, crops[i].name) != i || CountsAgree(crops, layout, crops[i].name)
    ensures forall v :: v in vs ==> DescribesCount(crops, layout, v) && v.cropName == crops[i].name
  {
    var name := crops[i].name;
    if FindIndex(crops, name) == i && !CountsAgree(crops, layout, name) then
      assert HasCrop(crops, name);
      [PlacementCount(name, multiset(CropNames(crops))[name], multiset(PlacementNames(layout))[name])]
    else []
  }

  /** Count mismatches for the crops from index `i` on, reported once per name. */
  function CountChecks(crops: seq<RecommendedCrop>, layout: seq<CropPlacement>, i: nat): (vs: seq<Violation>)
    requires i <= |crops|
    ensures vs == [] <==> forall k :: i <= k < |crops| && FindIndex(crops, crops[k].name) == k ==>
      CountsAgree(crops, layout, crops[k].name)
    ensures forall v :: v in vs ==> DescribesCount(crops, layout, v)
    decreases |crops| - i
  {
    if i == |crops| then []
    else CountReport(crops, layout, i) + CountChecks(crops, layout, i + 1)
  }

  /** Every name of the list has as many placements as crops. */
  predicate CountsAgreeForEachName(crops: seq<RecommendedCrop>, layout: seq<CropPlacement>) {
    forall k :: 0 <= k < |crops| && FindIndex(crops, crops[k].name) == k ==> CountsAgree(crops, layout, crops[k].name)
  }

  /** Rule 1 holds exactly when names match and every name has as many placements as crops. */
  lemma PlacedOnceIff(crops: seq<RecommendedCrop>, layout: seq<CropPlacement>)
    ensures EachCropPlacedOnce(crops, layout) <==> NamesMatch(crops, layout) && CountsAgreeForEachName(crops, layout)
  {
    var P, C := multiset(PlacementNames(layout)), multiset(CropNames(crops));
    if EachCropPlacedOnce(crops, layout) {
      forall i | 0 <= i < |layout|
        ensures HasCrop(crops, layout[i].cropName)
      {
        assert PlacementNames(layout)[i] in P;
        var k :| 0 <= k < |crops| && CropNames(crops)[k] == layout[i].cropName;
      }
    }
    if NamesMatch(crops, layout) && CountsAgreeForEachName(crops, layout) {
      forall x
        ensures P[x] == C[x]
      {
        if HasCrop(crops, x) {
          var k := FindIndex(crops, x);
          assert FindIndex(crops, crops[k].name) == k;
        } else {
          assert x !in CropNames(crops);
        }
      }
      assert P == C;
    }
  }

  function Max(a: int, b: int): int { if a < b then b else a }
  function Min(a: int, b: int): int { if a < b then a else b }

  /** The top-left tile shared by two rectangles, if they share any. */
  function Intersection(p1: Position, s1: PlantSize, p2: Position, s2: PlantSize): (at: Option<Coord>)
    ensures at.None? <==> forall r, c :: !(InRect(p1, s1, r, c) && InRect(p2, s2, r, c))
    ensures at.Some? ==> InRect(p1, s1, at.value.row, at.value.col) && InRect(p2, s2, at.value.row, at.value.col)
  {
    var top, bottom := Max(p1.row, p2.row), Min(p1.row + s1.height, p2.row + s2.height);
    var left, right := Max(p1.col, p2.col), Min(p1.col + s1.width, p2.col + s2.width);
    if top < bottom && left < right then
      assert InRect(p1, s1, top, left) && InRect(p2, s2, top, left);
      Some(Coord(top, left))
    else None
  }

  /** The first tile two placements both claim, if any. */
  function SharedTile(crops: seq<RecommendedCrop>, a: CropPlacement, b: CropPlacement): (at: Option<Coord>)
    ensures at.None? <==> !Clash(crops, a, b)
    ensures at.Some? ==> Occupies(crops, a, at.value.row, at.value.col) && Occupies(crops, b, at.value.row, at.value.col)
  {
    match (FindCrop(crops, a.cropName), FindCrop(crops, b.cropName))
    case (Some(ca), Some(cb)) =>
      var at := Intersection(a.position, ca.plantSize, b.position, cb.plantSize);
      if at.Some? then
        assert Occupies(crops, a, at.value.row, at.value.col) && Occupies(crops, b, at.value.row, at.value.col);
        at
      else at
    case _ => None
  }

  /** What an overlap report claims: it names placements `a` and `b` and a tile both occupy. */
  ghost predicate DescribesOverlap(crops: seq<RecommendedCrop>, layout: seq<CropPlacement>, a: nat, b: nat, v: Violation)
    requires a < |layout| && b < |layout|
  {
    && v.Overlap?
    && v.first == layout[a].cropName && v.second == layout[b].cropName
    && Occupies(crops, layout[a], v.row, v.col) && Occupies(crops, layout[b], v.row, v.col)
  }

  /** `v` reports placement `i` against some placement `k >= j`. */
  ghost predicate OverlapAgainstLater(crops: seq<RecommendedCrop>, layout: seq<CropPlacement>, i: nat, j: nat, v: Violation)
    requires i < |layout|
  {
    exists k :: j <= k < |layout| && DescribesOverlap(crops, layout, i, k, v)
  }

  /**
   * Reports of placement `i` against placement `j`, followed by reports against
   * placements from `j + 1` on, are all reports against placements from `j` on.
   */
  lemma OverlapReportsShift(
    crops: seq<RecommendedCrop>, layout: seq<CropPlacement>, i: nat, j: nat, head: seq<Violation>, rest: seq<Violation>)
    requires i < |layout| && j < |layout|
    requires forall v :: v in head ==> DescribesOverlap(crops, layout, i, j, v)
    requires forall v :: v in rest ==> OverlapAgainstLater(crops, layout, i, j + 1, v)
    ensures forall v :: v in head + rest ==> OverlapAgainstLater(crops, layout, i, j, v)
  {
    forall v | v in head + rest
      ensures OverlapAgainstLater(crops, layout, i, j, v)
    {
      if v !in head {
        var k :| j + 1 <= k < |layout| && DescribesOverlap(crops, layout, i, k, v);
        assert j <= k;
      }
    }
  }

  /**
   * Overlaps between placement `i` and each placement from index `j` on; each
   * names placement `i`, a placement `k >= j`, and a tile both occupy.
   */
  function OverlapsWith(crops: seq<RecommendedCrop>, layout: seq<CropPlacement>, i: nat, j: nat)
    : (vs: seq<Violation>)
    requires i < |layout| && j <= |layout|
    ensures vs == [] <==> forall k :: j <= k < |layout| ==> !Clash(crops, layout[i], layout[k])
    ensures forall v :: v in vs ==> OverlapAgainstLater(crops, layout, i, j, v)
    decreases |layout| - j
  {
    if j == |layout| then []
    else
      var head := match SharedTile(crops, layout[i], layout[j])
        case None => []
        case Some(at) => [Overlap(layout[i].cropName, layout[j].cropName, at.row, at.col)];
      var rest := OverlapsWith(crops, layout, i, j + 1);
      OverlapReportsShift(crops, layout, i, j, head, rest);
      head + rest
  }

  /** `v` reports some pair `i <= a < b` of placements. */
  ghost predicate OverlapAmong(crops: seq<RecommendedCrop>, layout: seq<CropPlacement>, i: nat, v: Violation) {
    exists a, b :: i <= a < b < |layout| && DescribesOverlap(crops, layout, a, b, v)
  }

  /**
   * Reports of placement `i` against later ones, followed by reports about pairs
   * from `i + 1` on, are all reports about pairs from `i` on.
   */
  lemma OverlapReportsExtend(
    crops: seq<RecommendedCrop>, layout: seq<CropPlacement>, i: nat, head: seq<Violation>, rest: seq<Violation>)
    requires i < |layout|
    requires forall v :: v in head ==> OverlapAgainstLater(crops, layout, i, i + 1, v)
    requires forall v :: v in rest ==> OverlapAmong(crops, layout, i + 1, v)
    ensures forall v :: v in head + rest ==> OverlapAmong(crops, layout, i, v)
  {
    forall v | v in head + rest
      ensures OverlapAmong(crops, layout, i, v)
    {
      if v in head {
        var k :| i + 1 <= k < |layout| && DescribesOverlap(crops, layout, i, k, v);
        assert i < k;
      } else {
        var a, b :| i + 1 <= a < b < |layout| && DescribesOverlap(crops, layout, a, b, v);
        assert i <= a;
      }
    }
  }

  /**
   * Overlaps among the placements from index `i` on, one per offending pair, in
   * list order; each names a pair `i <= a < b` and a tile both occupy.
   */
  function OverlapChecks(crops: seq<RecommendedCrop>, layout: seq<CropPlacement>, i: nat): (vs: seq<Violation>)
    requires i <= |layout|
    ensures vs == [] <==> forall a, b :: i <= a < b < |layout| ==> !Clash(crops, layout[a], layout[b])
    ensures forall v :: v in vs ==> OverlapAmong(crops, layout, i, v)
    decreases |layout| - i
  {
    if i == |layout| then []
    else
      var head, rest := OverlapsWith(crops, layout, i, i + 1), OverlapChecks(crops, layout, i + 1);
      OverlapReportsExtend(crops, layout, i, head, rest);
      head + rest
  }

  /** A report that is true of the layout: about one placement, a name's count, or a pair of placements. */
  ghost predicate Accurate(grid: TerraceLayout, crops: seq<RecommendedCrop>, layout: seq<CropPlacement>, v: Violation)
    requires WellFormed(grid)
  {
    || PlacementReport(grid, crops, layout, v)
    || DescribesCount(crops, layout, v)
    || OverlapAmong(crops, layout, 0, v)
  }

  /** Rules 6, 2 and 3 hold of every placement exactly when each holds of every placement. */
  lemma PerPlacementRules(grid: TerraceLayout, crops: seq<RecommendedCrop>, layout: seq<CropPlacement>)
    requires WellFormed(grid)
    ensures (forall i :: 0 <= i < |layout| ==>
        HasCrop(crops, layout[i].cropName) && CornerIsTile(crops, layout[i]) && OnPlantable(grid, crops, layout[i]))
      <==>
      && NamesMatch(crops, layout)
      && (forall i :: 0 <= i < |layout| ==> CornerIsTile(crops, layout[i]))
      && (forall i :: 0 <= i < |layout| ==> OnPlantable(grid, crops, layout[i]))
  {
  }

  /** No placement, count or overlap report exactly when the layout is valid. */
  lemma NoReportsIffValid(
    grid: TerraceLayout, crops: seq<RecommendedCrop>, layout: seq<CropPlacement>,
    ps: seq<Violation>, cs: seq<Violation>, os: seq<Violation>)
    requires WellFormed(grid)
    requires ps == [] <==> forall i :: 0 <= i < |layout| ==>
      HasCrop(crops, layout[i].cropName) && CornerIsTile(crops, layout[i]) && OnPlantable(grid, crops, layout[i])
    requires cs == [] <==> CountsAgreeForEachName(crops, layout)
    requires os == [] <==> forall a, b :: 0 <= a < b < |layout| ==> !Clash(crops, layout[a], layout[b])
    ensures ps + cs + os == [] <==> ValidLayout(grid, crops, layout)
  {
    PlacedOnceIff(crops, layout);
    assert ps + cs + os == [] <==> ps == [] && cs == [] && os == [];
    PerPlacementRules(grid, crops, layout);
    assert os == [] <==> Disjoint(crops, layout);
  }

  /** Placement, count and overlap reports, joined, are all accurate. */
  lemma AccurateReportsJoin(
    grid: TerraceLayout, crops: seq<RecommendedCrop>, layout: seq<CropPlacement>,
    ps: seq<Violation>, cs: seq<Violation>, os: seq<Violation>)
    requires WellFormed(grid)
    requires forall v :: v in ps ==> PlacementReport(grid, crops, layout, v)
    requires forall v :: v in cs ==> DescribesCount(crops, layout, v)
    requires forall v :: v in os ==> OverlapAmong(crops, layout, 0, v)
    ensures forall v :: v in ps + cs + os ==> Accurate(grid, crops, layout, v)
  {
  }

  /**
   * Every problem with a layout, reported and never repaired. The grid, the
   * crops and the layout are values, so checking cannot change them.
   */
  function Validate(grid: TerraceLayout, crops: seq<RecommendedCrop>, layout: seq<CropPlacement>)
    : (vs: seq<Violation>)
    requires WellFormed(grid)
    ensures vs == [] <==> ValidLayout(grid, crops, layout)
    ensures forall v :: v in vs ==> Accurate(grid, crops, layout, v)
  {
    var ps, cs, os := PlacementChecks(grid, crops, layout), CountChecks(crops, layout, 0), OverlapChecks(crops, layout, 0);
    NoReportsIffValid(grid, crops, layout, ps, cs, os);
    AccurateReportsJoin(grid, crops, layout, ps, cs, os);
    ps + cs + os
  }
}

=== FILE: planner.dfy ===
/**
 * The terrace planner: painting plantable tiles with a draw or erase tool,
 * clearing the grid and resizing it with the two dimension sliders.
 *
 * The planner holds no layout of its own: every edit hands a new layout to
 * the dashboard (`onChange`), which renders the planner again with it. Here
 * that round trip is folded into one state record, and an edit that does not
 * call `onChange` leaves the layout as it was.
 */
module Planner {
  import opened Wrappers
  import opened Layout

  datatype Tool = Draw | Erase

  /** The value a tool writes: drawing marks a tile plantable, erasing clears it. */
  function PaintValue(tool: Tool): bool {
    tool == Draw
  }

  /** The sliders run from 5 to 25 ft in steps of 1 ft. */
  const MinDimension: int := 5
  const MaxDimension: int := 25

  type SliderValue = n: int | MinDimension <= n <= MaxDimension witness MinDimension

  predicate InSliderRange(l: TerraceLayout) {
    MinDimension <= l.rows <= MaxDimension && MinDimension <= l.cols <= MaxDimension
  }

  /** A copy of the layout with one tile overwritten. */
  function SetCell(l: TerraceLayout, row: int, col: int, v: bool): (r: TerraceLayout)
    requires WellFormed(l) && InBounds(l, row, col)
    ensures WellFormed(r) && r.rows == l.rows && r.cols == l.cols
    ensures Cell(r, row, col) == v
    ensures forall i, j :: 0 <= i < l.rows && 0 <= j < l.cols && (i != row || j != col) ==>
      Cell(r, i, j) == Cell(l, i, j)
  {
    l.(grid := l.grid[row := l.grid[row][col := v]])
  }

  /** The layout after an edit that may or may not have called `onChange`. */
  function Commit(l: TerraceLayout, change: Option<TerraceLayout>): TerraceLayout {
    if change.Some? then change.value else l
  }

  /**
   * `updateCell(row, col)`: write the current tool's value into one tile.
   * When the tile already holds that value nothing is emitted (None).
   */
  function UpdateCell(l: TerraceLayout, tool: Tool, row: int, col: int): (change: Option<TerraceLayout>)
    requires WellFormed(l) && InBounds(l, row, col)
    ensures change.None? <==> Cell(l, row, col) == PaintValue(tool)
    ensures var after := Commit(l, change);
      && WellFormed(after) && after.rows == l.rows && after.cols == l.cols
      && Cell(after, row, col) == PaintValue(tool)
      && forall i, j :: 0 <= i < l.rows && 0 <= j < l.cols && (i != row || j != col) ==>
           Cell(after, i, j) == Cell(l, i, j)
  {
    var newValue := PaintValue(tool);
    if l.grid[row][col] != newValue then Some(SetCell(l, row, col, newValue)) else None
  }

  /** Writing the same tile with the same tool a second time emits nothing. */
  lemma UpdateCellIdempotent(l: TerraceLayout, tool: Tool, row: int, col: int)
    requires WellFormed(l) && InBounds(l, row, col)
    ensures var once := Commit(l, UpdateCell(l, tool, row, col));
      UpdateCell(once, tool, row, col).None?
  {
  }

  /** `clearGrid`: a layout of the same size with no plantable tile. */
  function ClearGrid(l: TerraceLayout): (r: TerraceLayout)
    ensures WellFormed(r)
    ensures r.rows == l.rows && r.cols == l.cols
    ensures AllClear(r)
  {
    l.(grid := seq(l.rows, _ => seq(l.cols, _ => false)))
  }

  /** Clearing yields exactly the layout the dashboard creates for that size. */
  lemma ClearGridIsEmptyLayout(l: TerraceLayout)
    ensures ClearGrid(l) == CreateEmptyLayout(l.rows, l.cols)
  {
    EmptyLayoutUnique(ClearGrid(l));
  }

  /**
   * The body of `handleDimensionChange`: a `newRows × newCols` grid keeping
   * each tile of the overlap with the old grid; every other tile is clear.
   */
  function Resize(l: TerraceLayout, newRows: nat, newCols: nat): (r: TerraceLayout)
    requires WellFormed(l)
    ensures WellFormed(r)
    ensures r.rows == newRows && r.cols == newCols
    ensures forall i, j :: 0 <= i < newRows && 0 <= j < newCols ==>
      Cell(r, i, j) == (InBounds(l, i, j) && Cell(l, i, j))
  {
    TerraceLayout(newRows, newCols,
      seq(newRows, i requires 0 <= i < newRows =>
        seq(newCols, j requires 0 <= j < newCols =>
          if i < l.rows && j < l.cols then l.grid[i][j] else false)))
  }

  datatype Dimension = Rows | Cols

  /** `handleDimensionChange(dim, value)`: only the named dimension takes the new value. */
  function HandleDimensionChange(l: TerraceLayout, dim: Dimension, value: nat): (r: TerraceLayout)
    requires WellFormed(l)
    ensures WellFormed(r)
    ensures r.rows == (if dim == Rows then value else l.rows)
    ensures r.cols == (if dim == Cols then value else l.cols)
    ensures forall i, j :: 0 <= i < r.rows && 0 <= j < r.cols ==>
      Cell(r, i, j) == (InBounds(l, i, j) && Cell(l, i, j))
  {
    var newRows := if dim == Rows then value else l.rows;
    var newCols := if dim == Cols then value else l.cols;
    Resize(l, newRows, newCols)
  }

  /** Resizing to the current size gives back the same layout. */
  lemma ResizeToSameSizeIsIdentity(l: TerraceLayout)
    requires WellFormed(l)
    ensures Resize(l, l.rows, l.cols) == l
  {
    SameTilesEqual(Resize(l, l.rows, l.cols), l);
  }

  /** Moving a slider to the value it already shows changes nothing. */
  lemma DimensionChangeToCurrentIsIdentity(l: TerraceLayout, dim: Dimension)
    requires WellFormed(l)
    ensures HandleDimensionChange(l, dim, if dim == Rows then l.rows else l.cols) == l
  {
    ResizeToSameSizeIsIdentity(l);
  }

  /**
   * Resizing away and back keeps exactly the tiles that survived both
   * overlaps; every tile that was cut off comes back clear.
   */
  lemma ResizeRoundTrip(l: TerraceLayout, midRows: nat, midCols: nat)
    requires WellFormed(l)
    ensures var back := Resize(Resize(l, midRows, midCols), l.rows, l.cols);
      && WellFormed(back) && back.rows == l.rows && back.cols == l.cols
      && forall i, j :: 0 <= i < l.rows && 0 <= j < l.cols ==>
           Cell(back, i, j) == (i < midRows && j < midCols && Cell(l, i, j))
  {
  }

  /** Growing and then shrinking back to the old size loses nothing. */
  lemma GrowThenShrinkIsIdentity(l: TerraceLayout, bigRows: nat, bigCols: nat)
    requires WellFormed(l)
    requires l.rows <= bigRows && l.cols <= bigCols
    ensures Resize(Resize(l, bigRows, bigCols), l.rows, l.cols) == l
  {
    var back := Resize(Resize(l, bigRows, bigCols), l.rows, l.cols);
    ResizeRoundTrip(l, bigRows, bigCols);
    SameTilesEqual(back, l);
  }

  // ---------------------------------------------------------------------------
  // The painting state machine

  /** What hit-testing found under the cursor: nothing, or one rendered tile. */
  datatype Target = NoCell | OnCell(at: Coord)

  /** Rendered tiles carry coordinates inside the grid being shown. */
  predicate TargetFits(l: TerraceLayout, t: Target) {
    t.OnCell? ==> InBounds(l, t.at.row, t.at.col)
  }

  datatype Event =
    | InteractionStart(target: Target)   // mouse down or touch start on the grid
    | InteractionMove(target: Target)    // mouse or touch move over the grid
    | InteractionEnd                     // mouse up, mouse leave or touch end
    | SelectTool(tool: Tool)             // the pencil and eraser buttons
    | Clear                              // the trash button
    | DimensionChange(dim: Dimension, value: SliderValue)

  datatype PlannerState = PlannerState(layout: TerraceLayout, isDrawing: bool, tool: Tool)

  /** The planner as first shown: the dashboard's initial layout, not drawing, pencil selected. */
  function InitialState(): PlannerState {
    PlannerState(InitialLayout(), false, Draw)
  }

  /** The state the planner can be in between events. */
  predicate Invariant(s: PlannerState) {
    WellFormed(s.layout) && InSliderRange(s.layout)
  }

  predicate Admissible(s: PlannerState, e: Event) {
    && WellFormed(s.layout)
    && ((e.InteractionStart? || e.InteractionMove?) ==> TargetFits(s.layout, e.target))
  }

  /** `updateCellFromEvent`, once hit-testing has found the target. */
  function PaintTarget(l: TerraceLayout, tool: Tool, t: Target): (r: TerraceLayout)
    requires WellFormed(l) && TargetFits(l, t)
    ensures WellFormed(r) && r.rows == l.rows && r.cols == l.cols
    ensures t.NoCell? ==> r == l
    ensures t.OnCell? ==> Cell(r, t.at.row, t.at.col) == PaintValue(tool)
    ensures forall i, j :: 0 <= i < l.rows && 0 <= j < l.cols && t != OnCell(Coord(i, j)) ==>
      Cell(r, i, j) == Cell(l, i, j)
  {
    match t
    case NoCell => l
    case OnCell(at) => Commit(l, UpdateCell(l, tool, at.row, at.col))
  }

  /** One event handled by the planner. */
  function Step(s: PlannerState, e: Event): (s': PlannerState)
    requires Admissible(s, e)
    ensures WellFormed(s'.layout)
    ensures !e.DimensionChange? ==> s'.layout.rows == s.layout.rows && s'.layout.cols == s.layout.cols
    ensures e.InteractionMove? && !s.isDrawing ==> s' == s
    ensures e.InteractionMove? && s.isDrawing ==>
      && s'.isDrawing && s'.tool == s.tool
      && (e.target.OnCell? ==> Cell(s'.layout, e.target.at.row, e.target.at.col) == PaintValue(s.tool))
      && (e.target.NoCell? ==> s'.layout == s.layout)
    ensures e.DimensionChange? ==>
      && s'.isDrawing == s.isDrawing && s'.tool == s.tool
      && s'.layout.rows == (if e.dim == Rows then e.value else s.layout.rows)
      && s'.layout.cols == (if e.dim == Cols then e.value else s.layout.cols)
      && forall i, j :: 0 <= i < s'.layout.rows && 0 <= j < s'.layout.cols ==>
           Cell(s'.layout, i, j) == (InBounds(s.layout, i, j) && Cell(s.layout, i, j))
    ensures e.InteractionStart? ==>
      && s'.isDrawing && s'.tool == s.tool
      && (e.target.OnCell? ==> Cell(s'.layout, e.target.at.row, e.target.at.col) == PaintValue(s.tool))
      && (e.target.NoCell? ==> s'.layout == s.layout)
    ensures (e.InteractionStart? || e.InteractionMove?) && e.target.OnCell? ==>
      forall i, j ::
        (0 <= i < s.layout.rows && 0 <= j < s.layout.cols && (i != e.target.at.row || j != e.target.at.col)) ==>
        Cell(s'.layout, i, j) == Cell(s.layout, i, j)
    ensures e.InteractionEnd? ==> s' == s.(isDrawing := false)
    ensures e.SelectTool? ==> s' == s.(tool := e.tool)
    ensures e.Clear? ==> AllClear(s'.layout) && s'.isDrawing == s.isDrawing && s'.tool == s.tool
    ensures InSliderRange(s.layout) ==> InSliderRange(s'.layout)
  {
    match e
    case InteractionStart(t) =>
      PlannerState(PaintTarget(s.layout, s.tool, t), true, s.tool)
    case InteractionMove(t) =>
      if !s.isDrawing then s else s.(layout := PaintTarget(s.layout, s.tool, t))
    case InteractionEnd =>
      s.(isDrawing := false)
    case SelectTool(tool) =>
      s.(tool := tool)
    case Clear =>
      s.(layout := ClearGrid(s.layout))
    case DimensionChange(dim, value) =>
      s.(layout := HandleDimensionChange(s.layout, dim, value))
  }

  /** A sequence of events each of which the planner can receive in the state it finds. */
  predicate AdmissibleRun(s: PlannerState, es: seq<Event>)
    decreases |es|
  {
    |es| == 0 || (Admissible(s, es[0]) && AdmissibleRun(Step(s, es[0]), es[1..]))
  }

  function Run(s: PlannerState, es: seq<Event>): PlannerState
    requires AdmissibleRun(s, es)
    decreases |es|
  {
    if |es| == 0 then s else Run(Step(s, es[0]), es[1..])
  }

  /** Every event keeps the grid well formed and both dimensions between 5 and 25. */
  lemma {:induction false} RunKeepsInvariant(s: PlannerState, es: seq<Event>)
    requires Invariant(s) && AdmissibleRun(s, es)
    ensures Invariant(Run(s, es))
    decreases |es|
  {
    if |es| > 0 {
      RunKeepsInvariant(Step(s, es[0]), es[1..]);
    }
  }

  lemma InitialStateSatisfiesInvariant()
    ensures Invariant(InitialState())
    ensures AllClear(InitialState().layout) && !InitialState().isDrawing
  {
  }

  // ---------------------------------------------------------------------------
  // Strokes

  predicate CellsFit(l: TerraceLayout, cells: seq<Coord>) {
    forall k :: 0 <= k < |cells| ==> InBounds(l, cells[k].row, cells[k].col)
  }

  /** Cursor moves over the given tiles, one move per tile. */
  function Moves(cells: seq<Coord>): (es: seq<Event>)
    ensures |es| == |cells|
    ensures forall k :: 0 <= k < |cells| ==> es[k] == InteractionMove(OnCell(cells[k]))
  {
    seq(|cells|, k requires 0 <= k < |cells| => InteractionMove(OnCell(cells[k])))
  }

  /** A stroke: press on the first tile, drag over the rest, release. */
  function Stroke(cells: seq<Coord>): seq<Event>
    requires |cells| > 0
  {
    [InteractionStart(OnCell(cells[0]))] + Moves(cells[1..]) + [InteractionEnd]
  }

  /**
   * While drawing, moves over a list of tiles paint exactly those tiles with
   * the tool's value and leave every other tile, the size and the mode alone.
   */
  lemma {:induction false} MovesPaintExactly(s: PlannerState, cells: seq<Coord>)
    requires WellFormed(s.layout) && s.isDrawing && CellsFit(s.layout, cells)
    ensures AdmissibleRun(s, Moves(cells))
    ensures var t := Run(s, Moves(cells));
      && WellFormed(t.layout) && t.isDrawing == s.isDrawing && t.tool == s.tool
      && t.layout.rows == s.layout.rows && t.layout.cols == s.layout.cols
      && forall i, j :: 0 <= i < s.layout.rows && 0 <= j < s.layout.cols ==>
           Cell(t.layout, i, j) == if Coord(i, j) in cells then PaintValue(s.tool) else Cell(s.layout, i, j)
    decreases |cells|
  {
    var es := Moves(cells);
    if |cells| > 0 {
      var s1 := Step(s, es[0]);
      assert es[1..] == Moves(cells[1..]);
      MovesPaintExactly(s1, cells[1..]);
      var t := Run(s1, es[1..]);
      forall i, j | 0 <= i < s.layout.rows && 0 <= j < s.layout.cols
        ensures Cell(t.layout, i, j) == if Coord(i, j) in cells then PaintValue(s.tool) else Cell(s.layout, i, j)
      {
        assert Coord(i, j) in cells <==> Coord(i, j) == cells[0] || Coord(i, j) in cells[1..];
      }
    }
  }

  /** Runs compose: a run of `a + b` is a run of `a` followed by a run of `b`. */
  lemma {:induction false} RunAppend(s: PlannerState, a: seq<Event>, b: seq<Event>)
    requires AdmissibleRun(s, a) && AdmissibleRun(Run(s, a), b)
    ensures AdmissibleRun(s, a + b)
    ensures Run(s, a + b) == Run(Run(s, a), b)
    decreases |a|
  {
    if |a| == 0 {
      assert a + b == b;
    } else {
      assert (a + b)[0] == a[0];
      assert (a + b)[1..] == a[1..] + b;
      RunAppend(Step(s, a[0]), a[1..], b);
    }
  }

  /**
   * A stroke paints exactly the tiles it passes over with the selected
   * tool's value and ends with drawing switched off.
   */
  lemma StrokePaintsExactly(s: PlannerState, cells: seq<Coord>)
    requires WellFormed(s.layout) && |cells| > 0 && CellsFit(s.layout, cells)
    ensures AdmissibleRun(s, Stroke(cells))
    ensures var t := Run(s, Stroke(cells));
      && WellFormed(t.layout) && !t.isDrawing && t.tool == s.tool
      && t.layout.rows == s.layout.rows && t.layout.cols == s.layout.cols
      && forall i, j :: 0 <= i < s.layout.rows && 0 <= j < s.layout.cols ==>
           Cell(t.layout, i, j) == if Coord(i, j) in cells then PaintValue(s.tool) else Cell(s.layout, i, j)
  {
    var start := [InteractionStart(OnCell(cells[0]))];
    var s1 := Step(s, start[0]);
    assert Run(s, start) == s1 by {
      assert start[1..] == [];
    }
    MovesPaintExactly(s1, cells[1..]);
    RunAppend(s, start, Moves(cells[1..]));
    var s2 := Run(s1, Moves(cells[1..]));
    assert Run(s2, [InteractionEnd]) == Step(s2, InteractionEnd) by {
      assert [InteractionEnd][1..] == [];
    }
    RunAppend(s, start + Moves(cells[1..]), [InteractionEnd]);
    assert Stroke(cells) == start + Moves(cells[1..]) + [InteractionEnd];
    var t := Run(s, Stroke(cells));
    forall i, j | 0 <= i < s.layout.rows && 0 <= j < s.layout.cols
      ensures Cell(t.layout, i, j) == if Coord(i, j) in cells then PaintValue(s.tool) else Cell(s.layout, i, j)
    {
      assert Coord(i, j) in cells <==> Coord(i, j) == cells[0] || Coord(i, j) in cells[1..];
    }
  }

  /**
   * Drawing a stroke, picking the eraser and repeating the stroke leaves the
   * stroke's tiles clear and every other tile as it was before.
   */
  lemma DrawThenEraseClearsStroke(s: PlannerState, cells: seq<Coord>)
    requires WellFormed(s.layout) && |cells| > 0 && CellsFit(s.layout, cells)
    requires s.tool == Draw
    ensures AdmissibleRun(s, Stroke(cells) + [SelectTool(Erase)] + Stroke(cells))
    ensures var t := Run(s, Stroke(cells) + [SelectTool(Erase)] + Stroke(cells));
      && WellFormed(t.layout) && t.tool == Erase
      && t.layout.rows == s.layout.rows && t.layout.cols == s.layout.cols
      && forall i, j :: 0 <= i < s.layout.rows && 0 <= j < s.layout.cols ==>
           Cell(t.layout, i, j) == (Coord(i, j) !in cells && Cell(s.layout, i, j))
  {
    StrokePaintsExactly(s, cells);
    var s1 := Run(s, Stroke(cells));
    var s2 := Step(s1, SelectTool(Erase));
    assert AdmissibleRun(s1, [SelectTool(Erase)]) && Run(s1, [SelectTool(Erase)]) == s2 by {
      assert [SelectTool(Erase)][1..] == [];
    }
    RunAppend(s, Stroke(cells), [SelectTool(Erase)]);
    StrokePaintsExactly(s2, cells);
    RunAppend(s, Stroke(cells) + [SelectTool(Erase)], Stroke(cells));
  }
}

=== FILE: results.dfy ===
/**
 * The pure parts of the results view: the colour each crop is drawn in, the
 * grid area of each placed crop on the layout overlay, and the state of each
 * crop card's plant button.
 */
module Results {
  import opened Wrappers
  import opened Layout
  import opened Crops
  import opened Placement
  import opened Tracking

  /** `cropColors` has ten entries. */
  const PaletteSize: int := 10

  /** JavaScript's `%`: the remainder has the sign of the dividend. */
  function JsRemainder(a: int, b: int): (r: int)
    requires b > 0
    ensures a >= 0 ==> 0 <= r < b
    ensures a < 0 ==> -b < r <= 0
  {
    if a >= 0 then a % b else -((-a) % b)
  }

  /**
   * `getCropColor(name)`: the palette entry at `findIndex % 10`. A name that
   * is not in the list gives index -1, and `cropColors[-1]` is undefined (None).
   */
  function GetCropColor(crops: seq<RecommendedCrop>, name: string): (color: Option<int>)
    ensures color.None? <==> !HasCrop(crops, name)
    ensures color.Some? ==> 0 <= color.value < PaletteSize
  {
    var cropIndex := FindIndex(crops, name);
    var k := JsRemainder(cropIndex, PaletteSize);
    if 0 <= k then Some(k) else None
  }

  /**
   * A listed crop gets the colour of the first crop with its name: the one at
   * index `k`, coloured `k mod 10`.
   */
  lemma ColorOfListedCrop(crops: seq<RecommendedCrop>, i: nat)
    requires i < |crops|
    ensures var k := FindIndex(crops, crops[i].name);
      && 0 <= k <= i && crops[k].name == crops[i].name
      && GetCropColor(crops, crops[i].name) == Some(k % PaletteSize)
  {
  }

  /** With no earlier crop of the same name, the crop at index `i` is coloured `i mod 10`. */
  lemma ColorOfFirstOccurrence(crops: seq<RecommendedCrop>, i: nat)
    requires i < |crops|
    requires forall j :: 0 <= j < i ==> crops[j].name != crops[i].name
    ensures GetCropColor(crops, crops[i].name) == Some(i % PaletteSize)
  {
    FindCropFirst(crops, i);
  }

  // ---------------------------------------------------------------------------
  // The layout overlay

  /**
   * The grid lines the overlay sets for one placement. `Covers` reads them as
   * the half-open span `[start, end)` of lines numbered from 1. That is how
   * CSS places the item only when `ProperSpan` holds: CSS also accepts negative
   * line numbers (counted from the end), ignores line 0, and swaps or shrinks
   * to one track a span whose end is not after its start.
   */
  datatype GridArea = GridArea(rowStart: int, colStart: int, rowEnd: int, colEnd: int)

  /** The area covers tile (r, c), whose grid lines are `r + 1` and `c + 1`. */
  predicate Covers(a: GridArea, r: int, c: int) {
    a.rowStart <= r + 1 < a.rowEnd && a.colStart <= c + 1 < a.colEnd
  }

  /**
   * The area the overlay gives one placement, or nothing when its name matches
   * no crop. The area covers exactly the tiles the placement occupies.
   */
  function OverlayArea(crops: seq<RecommendedCrop>, pl: CropPlacement): (area: Option<GridArea>)
    ensures area.None? <==> !HasCrop(crops, pl.cropName)
    ensures area.Some? ==> forall r, c :: Covers(area.value, r, c) <==> Occupies(crops, pl, r, c)
    ensures area.Some? ==> area.value.rowStart == pl.position.row + 1 && area.value.colStart == pl.position.col + 1
  {
    match FindCrop(crops, pl.cropName)
    case None => None
    case Some(crop) =>
      var p := pl.position;
      Some(GridArea(p.row + 1, p.col + 1, p.row + crop.plantSize.height + 1, p.col + crop.plantSize.width + 1))
  }

  /** One coloured box drawn over the layout. */
  datatype Overlay = Overlay(cropName: string, area: GridArea, color: Option<int>)

  /** The placements whose name matches a crop, in order. */
  function Matched(crops: seq<RecommendedCrop>, layout: seq<CropPlacement>): (m: seq<CropPlacement>)
    ensures |m| <= |layout|
    ensures NamesMatch(crops, layout) ==> m == layout
  {
    if |layout| == 0 then []
    else
      assert forall i :: 1 <= i < |layout| ==> layout[i] == layout[1..][i - 1];
      (if HasCrop(crops, layout[0].cropName) then [layout[0]] else []) + Matched(crops, layout[1..])
  }

  /** `Matched` keeps exactly the placements that name a crop. */
  lemma {:induction false} MatchedIsFilter(crops: seq<RecommendedCrop>, layout: seq<CropPlacement>)
    ensures forall k :: 0 <= k < |Matched(crops, layout)| ==>
      Matched(crops, layout)[k] in layout && HasCrop(crops, Matched(crops, layout)[k].cropName)
    ensures forall i :: 0 <= i < |layout| && HasCrop(crops, layout[i].cropName) ==>
      layout[i] in Matched(crops, layout)
  {
    if |layout| > 0 {
      MatchedIsFilter(crops, layout[1..]);
      var m := Matched(crops, layout[1..]);
      assert forall i :: 1 <= i < |layout| ==> layout[i] == layout[1..][i - 1];
      if HasCrop(crops, layout[0].cropName) {
        assert Matched(crops, layout) == [layout[0]] + m;
      } else {
        assert Matched(crops, layout) == m;
      }
    }
  }

  /**
   * The boxes the overlay draws, in placement order; a placement naming no
   * crop draws nothing.
   */
  function RenderedOverlays(crops: seq<RecommendedCrop>, layout: seq<CropPlacement>): (overlays: seq<Overlay>)
    ensures |overlays| == |Matched(crops, layout)|
  {
    if |layout| == 0 then []
    else
      var pl := layout[0];
      var rest := RenderedOverlays(crops, layout[1..]);
      match OverlayArea(crops, pl)
      case None => rest
      case Some(area) => [Overlay(pl.cropName, area, GetCropColor(crops, pl.cropName))] + rest
  }

  /** The box for placement `pl`: its name, the area `OverlayArea` gives it, and the colour of its name. */
  predicate Drawn(crops: seq<RecommendedCrop>, pl: CropPlacement, o: Overlay) {
    && o.cropName == pl.cropName
    && OverlayArea(crops, pl) == Some(o.area)
    && o.color == GetCropColor(crops, o.cropName)
    && o.color.Some?
  }

  /** The `k`-th box drawn is the box of the `k`-th placement that names a crop. */
  lemma {:induction false} OverlaysDrawMatched(crops: seq<RecommendedCrop>, layout: seq<CropPlacement>)
    ensures forall k :: 0 <= k < |RenderedOverlays(crops, layout)| ==>
      Drawn(crops, Matched(crops, layout)[k], RenderedOverlays(crops, layout)[k])
  {
    if |layout| > 0 {
      var pl := layout[0];
      var overlays, m := RenderedOverlays(crops, layout), Matched(crops, layout);
      var rest, m' := RenderedOverlays(crops, layout[1..]), Matched(crops, layout[1..]);
      OverlaysDrawMatched(crops, layout[1..]);
      if HasCrop(crops, pl.cropName) {
        var area := OverlayArea(crops, pl).value;
        var o := Overlay(pl.cropName, area, GetCropColor(crops, pl.cropName));
        assert overlays == [o] + rest;
        assert m == [pl] + m';
        forall k | 0 <= k < |overlays|
          ensures Drawn(crops, m[k], overlays[k])
        {
          if k > 0 {
            assert m[k] == m'[k - 1] && overlays[k] == rest[k - 1];
          }
        }
      } else {
        assert overlays == rest && m == m';
      }
    }
  }

  /** When every placement names a crop, one box is drawn per placement, in order. */
  lemma OverlaysWhenNamesMatch(crops: seq<RecommendedCrop>, layout: seq<CropPlacement>)
    requires NamesMatch(crops, layout)
    ensures var overlays := RenderedOverlays(crops, layout);
      && |overlays| == |layout|
      && forall i :: 0 <= i < |layout| ==>
           overlays[i].cropName == layout[i].cropName && OverlayArea(crops, layout[i]) == Some(overlays[i].area)
  {
    assert Matched(crops, layout) == layout;
    OverlaysDrawMatched(crops, layout);
  }

  /** A CSS span from line `start` to line `end` across `tracks` tracks names real tracks. */
  predicate ProperSpan(start: int, end: int, tracks: nat) {
    1 <= start < end <= tracks + 1
  }

  /**
   * For a valid layout every placement is drawn; every box spans at least one
   * row and one column and ends inside the grid, so CSS places it on exactly the
   * tiles `Covers` names; and no two boxes cover a common tile.
   */
  lemma ValidLayoutRendersCleanly(
    grid: TerraceLayout, crops: seq<RecommendedCrop>, layout: seq<CropPlacement>)
    requires WellFormed(grid) && ValidLayout(grid, crops, layout)
    ensures var overlays := RenderedOverlays(crops, layout);
      && |overlays| == |layout|
      && (forall i :: 0 <= i < |overlays| ==>
            && ProperSpan(overlays[i].area.rowStart, overlays[i].area.rowEnd, grid.rows)
            && ProperSpan(overlays[i].area.colStart, overlays[i].area.colEnd, grid.cols))
      && (forall i, r, c :: 0 <= i < |overlays| && Covers(overlays[i].area, r, c) ==> InBounds(grid, r, c))
      && (forall i, j, r, c :: 0 <= i < j < |overlays| && Covers(overlays[i].area, r, c) ==>
            !Covers(overlays[j].area, r, c))
  {
    var overlays := RenderedOverlays(crops, layout);
    OverlaysWhenNamesMatch(crops, layout);
    forall i | 0 <= i < |overlays|
      ensures ProperSpan(overlays[i].area.rowStart, overlays[i].area.rowEnd, grid.rows)
      ensures ProperSpan(overlays[i].area.colStart, overlays[i].area.colEnd, grid.cols)
    {
      var pl, a := layout[i], overlays[i].area;
      var size := FindCrop(crops, pl.cropName).value.plantSize;
      assert CornerIsTile(crops, pl) && OnPlantable(grid, crops, pl);
      assert Occupies(crops, pl, pl.position.row + size.height - 1, pl.position.col + size.width - 1);
      assert a.rowEnd == a.rowStart + size.height && a.colEnd == a.colStart + size.width;
    }
    forall i, r, c | 0 <= i < |overlays| && Covers(overlays[i].area, r, c)
      ensures InBounds(grid, r, c)
    {
      assert Occupies(crops, layout[i], r, c);
      assert OnPlantable(grid, crops, layout[i]);
    }
    forall i, j, r, c | 0 <= i < j < |overlays| && Covers(overlays[i].area, r, c)
      ensures !Covers(overlays[j].area, r, c)
    {
      assert Occupies(crops, layout[i], r, c);
    }
  }

  // ---------------------------------------------------------------------------
  // Crop cards

  /** The card's plant button is disabled once a crop of that name is tracked. */
  function PlantButtonDisabled(tracked: seq<TrackedCrop>, crop: RecommendedCrop): (disabled: bool)
    ensures disabled <==> exists i :: 0 <= i < |tracked| && tracked[i].Name() == crop.name
  {
    IsPlanted(tracked, crop.name)
  }

  /** The button is disabled exactly when pressing it would change nothing. */
  lemma DisabledExactlyWhenPlantingIsNoop(
    tracked: seq<TrackedCrop>, crop: RecommendedCrop, now: nat, plantedDate: Timestamp)
    ensures PlantButtonDisabled(tracked, crop) <==> HandlePlantCrop(tracked, crop, now, plantedDate) == tracked
  {
    if !PlantButtonDisabled(tracked, crop) {
      assert |HandlePlantCrop(tracked, crop, now, plantedDate)| != |tracked|;
    }
  }
}

=== FILE: scenarios.dfy ===
/**
 * Concrete layouts and the reports the checker gives for them, one per kind of
 * problem, plus a valid layout.
 */
module PlacementScenarios {
  import opened Wrappers
  import opened Layout
  import opened Crops
  import opened Placement

  function Square(name: string, side: nat): RecommendedCrop {
    RecommendedCrop(name, "", "", "", PlantSize(side, side))
  }

  function AllPlantable(n: nat): (l: TerraceLayout)
    ensures WellFormed(l) && l.rows == n && l.cols == n
  {
    TerraceLayout(n, n, seq(n, _ => seq(n, _ => true)))
  }

  lemma OneCropOnOpenGridIsValid()
    ensures Validate(AllPlantable(3), [Square("Tomato", 1)], [CropPlacement("Tomato", Position(0, 0))]) == []
  {
  }

  lemma SameTileGivesOneOverlap()
    ensures Validate(AllPlantable(3), [Square("Tomato", 1), Square("Basil", 1)],
      [CropPlacement("Tomato", Position(1, 1)), CropPlacement("Basil", Position(1, 1))])
      == [Overlap("Tomato", "Basil", 1, 1)]
  {
    var grid, crops := AllPlantable(3), [Square("Tomato", 1), Square("Basil", 1)];
    var layout := [CropPlacement("Tomato", Position(1, 1)), CropPlacement("Basil", Position(1, 1))];
    assert FindCrop(crops, "Tomato") == Some(crops[0]);
    assert FindCrop(crops, "Basil") == Some(crops[1]);
    assert PlacementViolations(grid, crops, layout[0]) == [];
    assert PlacementViolations(grid, crops, layout[1]) == [];
    assert PlacementChecks(grid, crops, layout) == [] by {
      assert layout[1..][1..] == [];
    }
    assert CountChecks(crops, layout, 0) == [] by {
      assert PlacementNames(layout) == CropNames(crops);
    }
    assert SharedTile(crops, layout[0], layout[1]) == Some(Coord(1, 1));
    assert OverlapsWith(crops, layout, 0, 1) == [Overlap("Tomato", "Basil", 1, 1)];
    assert OverlapChecks(crops, layout, 0) == [Overlap("Tomato", "Basil", 1, 1)];
  }

  lemma FootprintPastEdgeIsOutOfBounds()
    ensures Validate(AllPlantable(2), [Square("Squash", 2)], [CropPlacement("Squash", Position(1, 1))])
      == [OutOfBounds("Squash")]
  {
  }

  lemma UnlistedNameIsUnknownCrop()
    ensures Validate(AllPlantable(3), [Square("Tomato", 1)],
      [CropPlacement("Tomato", Position(0, 0)), CropPlacement("Mint", Position(2, 2))])
      == [UnknownCrop("Mint")]
  {
    var grid, crops := AllPlantable(3), [Square("Tomato", 1)];
    var layout := [CropPlacement("Tomato", Position(0, 0)), CropPlacement("Mint", Position(2, 2))];
    assert FindCrop(crops, "Tomato") == Some(crops[0]);
    assert FindCrop(crops, "Mint") == None by {
      assert crops[0].name != "Mint";
    }
    assert PlacementViolations(grid, crops, layout[0]) == [];
    assert PlacementViolations(grid, crops, layout[1]) == [UnknownCrop("Mint")];
    assert PlacementChecks(grid, crops, layout) == [UnknownCrop("Mint")] by {
      assert layout[1..][1..] == [];
    }
    assert CountChecks(crops, layout, 0) == [] by {
      assert PlacementNames(layout) == ["Tomato"] + ["Mint"];
      assert "Tomato" != "Mint";
      assert multiset(PlacementNames(layout))["Tomato"] == 1;
      assert multiset(CropNames(crops))["Tomato"] == 1;
    }
    assert OverlapChecks(crops, layout, 0) == [];
  }

  /**
   * A crop whose size rounds to no tiles has no top-left tile, so it is reported
   * wherever it is placed, even on top of another crop.
   */
  lemma ZeroSizeCropHasNoArea()
    ensures Validate(AllPlantable(3), [Square("Cress", 0), Square("Tomato", 1)],
      [CropPlacement("Cress", Position(1, 1)), CropPlacement("Tomato", Position(1, 1))])
      == [EmptyArea("Cress")]
  {
    var grid, crops := AllPlantable(3), [Square("Cress", 0), Square("Tomato", 1)];
    var layout := [CropPlacement("Cress", Position(1, 1)), CropPlacement("Tomato", Position(1, 1))];
    assert FindCrop(crops, "Cress") == Some(crops[0]);
    assert FindCrop(crops, "Tomato") == Some(crops[1]);
    assert PlacementViolations(grid, crops, layout[0]) == [EmptyArea("Cress")];
    assert PlacementViolations(grid, crops, layout[1]) == [];
    assert PlacementChecks(grid, crops, layout) == [EmptyArea("Cress")] by {
      assert layout[1..][1..] == [];
    }
    assert CountChecks(crops, layout, 0) == [] by {
      assert PlacementNames(layout) == CropNames(crops);
    }
    assert SharedTile(crops, layout[0], layout[1]) == None;
    assert OverlapsWith(crops, layout, 0, 1) == [];
    assert OverlapChecks(crops, layout, 0) == [];
  }
}

=== FILE: tracking.dfy ===
/**
 * The dashboard's list of tracked crops: planting a recommended crop,
 * logging a watering and removing a crop.
 *
 * Clock readings (`new Date()`) are passed in: `now` is `getTime()` in
 * milliseconds, used for the id, and `plantedDate` and `wateredAt` are the
 * other two `Date` values the handlers create.
 */
module Tracking {
  import opened Crops

  /** Milliseconds since the epoch. */
  type Timestamp = int

  /** A recommended crop plus the fields the dashboard adds when it is planted. */
  datatype TrackedCrop = TrackedCrop(
    crop: RecommendedCrop,
    id: string,
    plantedDate: Timestamp,
    wateringLog: seq<Timestamp>)
  {
    function Name(): string { crop.name }
  }

  // ---------------------------------------------------------------------------
  // Ids

  function DigitChar(d: nat): (ch: char)
    requires d < 10
    ensures '0' <= ch <= '9'
  {
    "0123456789"[d]
  }

  /** The decimal digits of `n`, as a template literal prints it. */
  function DecimalString(n: nat): (s: string)
    ensures |s| > 0
    ensures forall k :: 0 <= k < |s| ==> '0' <= s[k] <= '9'
  {
    if n < 10 then [DigitChar(n)] else DecimalString(n / 10) + [DigitChar(n % 10)]
  }

  /** `${crop.name}-${getTime()}` */
  function MakeId(name: string, now: nat): (id: string)
    ensures |id| > |name| + 1 && id[..|name| + 1] == name + "-"
    ensures forall k :: |name| < k < |id| ==> '0' <= id[k] <= '9'
  {
    name + "-" + DecimalString(now)
  }

  /** The part of an id before its last `-`. */
  function IdName(id: string): string
    decreases |id|
  {
    if |id| == 0 then ""
    else if id[|id| - 1] == '-' then id[..|id| - 1]
    else IdName(id[..|id| - 1])
  }

  /** A dash-free suffix is skipped when looking for the last `-`. */
  lemma {:induction false} IdNameSkipsSuffix(prefix: string, suffix: string)
    requires forall k :: 0 <= k < |suffix| ==> suffix[k] != '-'
    ensures IdName(prefix + "-" + suffix) == prefix
    decreases |suffix|
  {
    var id := prefix + "-" + suffix;
    if |suffix| == 0 {
      assert id[..|id| - 1] == prefix;
    } else {
      assert id[|id| - 1] == suffix[|suffix| - 1];
      assert id[..|id| - 1] == prefix + "-" + suffix[..|suffix| - 1];
      IdNameSkipsSuffix(prefix, suffix[..|suffix| - 1]);
    }
  }

  /** The crop name can be read back from every id the dashboard makes. */
  lemma IdNameOfMakeId(name: string, now: nat)
    ensures IdName(MakeId(name, now)) == name
  {
    IdNameSkipsSuffix(name, DecimalString(now));
  }

  // ---------------------------------------------------------------------------
  // Invariants of the list

  predicate UniqueNames(tracked: seq<TrackedCrop>) {
    forall i, j :: 0 <= i < j < |tracked| ==> tracked[i].Name() != tracked[j].Name()
  }

  predicate UniqueIds(tracked: seq<TrackedCrop>) {
    forall i, j :: 0 <= i < j < |tracked| ==> tracked[i].id != tracked[j].id
  }

  /** Every id was made from its own crop's name. */
  predicate IdsFromNames(tracked: seq<TrackedCrop>) {
    forall i :: 0 <= i < |tracked| ==> IdName(tracked[i].id) == tracked[i].Name()
  }

  /** Distinct names give distinct ids, whatever the clock said. */
  lemma UniqueNamesGiveUniqueIds(tracked: seq<TrackedCrop>)
    requires UniqueNames(tracked) && IdsFromNames(tracked)
    ensures UniqueIds(tracked)
  {
    forall i, j | 0 <= i < j < |tracked|
      ensures tracked[i].id != tracked[j].id
    {
      assert IdName(tracked[i].id) != IdName(tracked[j].id);
    }
  }

  // ---------------------------------------------------------------------------
  // Planting

  /** `trackedCrops.some(tc => tc.name === name)` */
  function IsPlanted(tracked: seq<TrackedCrop>, name: string): (b: bool)
    ensures b <==> exists i :: 0 <= i < |tracked| && tracked[i].Name() == name
  {
    if |tracked| == 0 then false
    else
      assert forall j :: 1 <= j < |tracked| ==> tracked[j] == tracked[1..][j - 1];
      tracked[0].Name() == name || IsPlanted(tracked[1..], name)
  }

  /**
   * `handlePlantCrop(crop)`: a crop whose name is already tracked is ignored;
   * otherwise one entry is appended with a fresh id and an empty watering log.
   */
  function HandlePlantCrop(tracked: seq<TrackedCrop>, crop: RecommendedCrop, now: nat, plantedDate: Timestamp)
    : (r: seq<TrackedCrop>)
    ensures IsPlanted(tracked, crop.name) ==> r == tracked
    ensures !IsPlanted(tracked, crop.name) ==>
      && |r| == |tracked| + 1 && r[..|tracked|] == tracked
      && r[|tracked|].crop == crop && r[|tracked|].plantedDate == plantedDate
      && r[|tracked|].wateringLog == []
      && r[|tracked|].id == MakeId(crop.name, now)
      && IdName(r[|tracked|].id) == crop.name
    ensures IsPlanted(r, crop.name)
    ensures UniqueNames(tracked) ==> UniqueNames(r)
    ensures IdsFromNames(tracked) ==> IdsFromNames(r)
  {
    if IsPlanted(tracked, crop.name) then tracked
    else
      var newCrop := TrackedCrop(crop, MakeId(crop.name, now), plantedDate, []);
      IdNameOfMakeId(crop.name, now);
      var r := tracked + [newCrop];
      assert r[|tracked|] == newCrop;
      r
  }

  // ---------------------------------------------------------------------------
  // Watering

  function Watered(t: TrackedCrop, wateredAt: Timestamp): TrackedCrop {
    t.(wateringLog := t.wateringLog + [wateredAt])
  }

  /**
   * `handleWaterCrop(cropId)`: every entry with that id gets exactly one more
   * log entry; nothing else in the list changes.
   */
  function HandleWaterCrop(tracked: seq<TrackedCrop>, cropId: string, wateredAt: Timestamp)
    : (r: seq<TrackedCrop>)
    ensures |r| == |tracked|
    ensures forall i :: 0 <= i < |tracked| ==>
      && r[i].crop == tracked[i].crop && r[i].id == tracked[i].id
      && r[i].plantedDate == tracked[i].plantedDate
      && r[i].wateringLog == tracked[i].wateringLog + (if tracked[i].id == cropId then [wateredAt] else [])
  {
    if |tracked| == 0 then []
    else
      var head := if tracked[0].id == cropId then Watered(tracked[0], wateredAt) else tracked[0];
      var rest := HandleWaterCrop(tracked[1..], cropId, wateredAt);
      assert forall j :: 1 <= j < |tracked| ==> tracked[j] == tracked[1..][j - 1];
      [head] + rest
  }

  /** Watering keeps both list invariants. */
  lemma WaterKeepsInvariants(tracked: seq<TrackedCrop>, cropId: string, wateredAt: Timestamp)
    ensures var r := HandleWaterCrop(tracked, cropId, wateredAt);
      && (UniqueNames(tracked) ==> UniqueNames(r))
      && (IdsFromNames(tracked) ==> IdsFromNames(r))
  {
    var r := HandleWaterCrop(tracked, cropId, wateredAt);
    assert forall i :: 0 <= i < |r| ==> r[i].Name() == tracked[i].Name() && r[i].id == tracked[i].id;
  }

  predicate HasId(tracked: seq<TrackedCrop>, cropId: string) {
    exists i :: 0 <= i < |tracked| && tracked[i].id == cropId
  }

  /** Watering an id nobody has changes nothing. */
  lemma WaterAbsentIdIsIdentity(tracked: seq<TrackedCrop>, cropId: string, wateredAt: Timestamp)
    requires !HasId(tracked, cropId)
    ensures HandleWaterCrop(tracked, cropId, wateredAt) == tracked
  {
    var r := HandleWaterCrop(tracked, cropId, wateredAt);
    assert forall i :: 0 <= i < |r| ==> r[i] == tracked[i];
  }

  /** Number of entries carrying the id. */
  function CountId(tracked: seq<TrackedCrop>, cropId: string): nat {
    if |tracked| == 0 then 0
    else (if tracked[0].id == cropId then 1 else 0) + CountId(tracked[1..], cropId)
  }

  /** All watering events recorded in the list. */
  function TotalWaterings(tracked: seq<TrackedCrop>): nat {
    if |tracked| == 0 then 0 else |tracked[0].wateringLog| + TotalWaterings(tracked[1..])
  }

  /** One watering adds exactly one log entry per entry with that id: one when ids are unique. */
  lemma {:induction false} WaterAddsOnePerMatch(tracked: seq<TrackedCrop>, cropId: string, wateredAt: Timestamp)
    ensures TotalWaterings(HandleWaterCrop(tracked, cropId, wateredAt))
      == TotalWaterings(tracked) + CountId(tracked, cropId)
  {
    if |tracked| > 0 {
      var r := HandleWaterCrop(tracked, cropId, wateredAt);
      assert r[1..] == HandleWaterCrop(tracked[1..], cropId, wateredAt);
      WaterAddsOnePerMatch(tracked[1..], cropId, wateredAt);
    }
  }

  // ---------------------------------------------------------------------------
  // Removing

  /** `a` is `b` with some entries dropped and the rest kept in order. */
  predicate IsSubsequence<T(==)>(a: seq<T>, b: seq<T>)
    decreases |b|
  {
    if |a| == 0 then true
    else if |b| == 0 then false
    else if a[0] == b[0] then IsSubsequence(a[1..], b[1..])
    else IsSubsequence(a, b[1..])
  }

  /** `handleRemoveCrop(cropId)`: keep, in order, exactly the entries with another id. */
  function HandleRemoveCrop(tracked: seq<TrackedCrop>, cropId: string): (r: seq<TrackedCrop>)
    ensures forall i :: 0 <= i < |r| ==> r[i].id != cropId
    ensures forall i :: 0 <= i < |tracked| && tracked[i].id != cropId ==> tracked[i] in r
    ensures IsSubsequence(r, tracked)
    ensures |r| == |tracked| - CountId(tracked, cropId)
    ensures !HasId(tracked, cropId) ==> r == tracked
  {
    if |tracked| == 0 then []
    else
      var rest := HandleRemoveCrop(tracked[1..], cropId);
      assert forall j :: 1 <= j < |tracked| ==> tracked[j] == tracked[1..][j - 1];
      if tracked[0].id == cropId then rest
      else
        var r := [tracked[0]] + rest;
        assert r[1..] == rest;
        r
  }

  /** Dropping entries cannot make two names equal. */
  lemma {:induction false} SubsequenceKeepsUniqueNames(a: seq<TrackedCrop>, b: seq<TrackedCrop>)
    requires IsSubsequence(a, b) && UniqueNames(b)
    ensures UniqueNames(a)
    decreases |b|
  {
    if |a| > 0 {
      assert UniqueNames(b[1..]) by {
        forall i, j | 0 <= i < j < |b[1..]|
          ensures b[1..][i].Name() != b[1..][j].Name()
        {
          assert b[1..][i] == b[i + 1] && b[1..][j] == b[j + 1];
        }
      }
      if a[0] == b[0] {
        SubsequenceKeepsUniqueNames(a[1..], b[1..]);
        SubsequenceMembers(a[1..], b[1..]);
        forall j | 0 < j < |a|
          ensures a[0].Name() != a[j].Name()
        {
          assert a[1..][j - 1] == a[j];
          var k :| 0 <= k < |b[1..]| && b[1..][k] == a[j];
          assert b[k + 1] == a[j];
        }
      } else {
        SubsequenceKeepsUniqueNames(a, b[1..]);
      }
    }
  }

  /** Every entry of a subsequence is an entry of the whole. */
  lemma {:induction false} SubsequenceMembers<T>(a: seq<T>, b: seq<T>)
    requires IsSubsequence(a, b)
    ensures forall i :: 0 <= i < |a| ==> a[i] in b
    decreases |b|
  {
    if |a| > 0 {
      if a[0] == b[0] {
        SubsequenceMembers(a[1..], b[1..]);
        assert forall i :: 1 <= i < |a| ==> a[i] == a[1..][i - 1];
      } else {
        SubsequenceMembers(a, b[1..]);
      }
    }
  }

  /** Removing keeps both list invariants. */
  lemma RemoveKeepsInvariants(tracked: seq<TrackedCrop>, cropId: string)
    ensures var r := HandleRemoveCrop(tracked, cropId);
      && (UniqueNames(tracked) ==> UniqueNames(r))
      && (IdsFromNames(tracked) ==> IdsFromNames(r))
  {
    var r := HandleRemoveCrop(tracked, cropId);
    if UniqueNames(tracked) {
      SubsequenceKeepsUniqueNames(r, tracked);
    }
    SubsequenceMembers(r, tracked);
  }
}

=== FILE: weather.dfy ===
/**
 * The simulated weather tool: a city name is hashed to a 32-bit integer,
 * and temperature, humidity and light level are read off the hash.
 *
 * JavaScript strings are sequences of UTF-16 code units (`charCodeAt`), so
 * a city is modelled as a sequence of integers in `[0, 65536)`. Shifts and
 * `|= 0` work on signed 32-bit integers; every other operation here works on
 * doubles, whose values stay below 2^53 in magnitude and so are exact.
 */
module Weather {

  type CodeUnit = c: int | 0 <= c < 0x1_0000

  const TwoTo31: int := 0x8000_0000
  const TwoTo32: int := 0x1_0000_0000

  predicate IsInt32(x: int) {
    -TwoTo31 <= x < TwoTo31
  }

  /** JavaScript's ToInt32: `x` reduced modulo 2^32 into the signed range. */
  function ToInt32(x: int): (r: int)
    ensures IsInt32(r)
    ensures IsInt32(x) ==> r == x
  {
    (x + TwoTo31) % TwoTo32 - TwoTo31
  }

  /** How many times 2^32 was taken off `x` by `ToInt32`. */
  lemma ToInt32Wraps(x: int) returns (k: int)
    ensures ToInt32(x) == x - k * TwoTo32
  {
    k := (x + TwoTo31) / TwoTo32;
  }

  /** Adding a multiple of 2^32 does not change the 32-bit value. */
  lemma ToInt32Periodic(x: int, k: int)
    ensures ToInt32(x + k * TwoTo32) == ToInt32(x)
  {
    var a, b := x + TwoTo31, x + k * TwoTo32 + TwoTo31;
    var q := a / TwoTo32;
    assert a == q * TwoTo32 + a % TwoTo32;
    assert b == (q + k) * TwoTo32 + a % TwoTo32;
    ModUnique(b, q + k, a % TwoTo32);
  }

  lemma ModUnique(a: int, q: int, r: int)
    requires 0 <= r < TwoTo32 && a == q * TwoTo32 + r
    ensures a % TwoTo32 == r
  {
  }

  /** `hash << 5` on a 32-bit value. */
  function ShiftLeft5(h: int): int {
    ToInt32(ToInt32(h) * 32)
  }

  /** On a 32-bit value, `h << 5` is `32 * h` less some multiple `k` of 2^32. */
  lemma ShiftLeft5Multiplies(h: int) returns (k: int)
    requires IsInt32(h)
    ensures IsInt32(ShiftLeft5(h))
    ensures ShiftLeft5(h) == 32 * h - k * TwoTo32
  {
    k := ToInt32Wraps(h * 32);
  }

  /** One round of the loop: `hash = (hash << 5) - hash + char; hash |= 0`. */
  function HashStep(h: int, ch: CodeUnit): (r: int)
    ensures IsInt32(r)
  {
    ToInt32(ShiftLeft5(h) - h + ch)
  }

  /** The hash of a city, folding `HashStep` over its code units from the left. */
  function Hash(city: seq<CodeUnit>): (h: int)
    ensures IsInt32(h)
  {
    if |city| == 0 then 0 else HashStep(Hash(city[..|city| - 1]), city[|city| - 1])
  }

  /** The loop of `getWeatherTool`. */
  method ComputeHash(city: seq<CodeUnit>) returns (hash: int)
    ensures hash == Hash(city)
    ensures IsInt32(hash)
  {
    hash := 0;
    var i := 0;
    while i < |city|
      invariant 0 <= i <= |city|
      invariant hash == Hash(city[..i])
      invariant IsInt32(hash)
    {
      var ch := city[i];
      assert city[..i + 1][..i] == city[..i];
      hash := ShiftLeft5(hash) - hash + ch;
      hash := ToInt32(hash);
      i := i + 1;
    }
    assert city[..|city|] == city;
  }

  /** The polynomial `sum city[k] * 31^(n-1-k)` in unbounded integers. */
  function Polynomial(city: seq<CodeUnit>): int {
    if |city| == 0 then 0 else 31 * Polynomial(city[..|city| - 1]) + city[|city| - 1]
  }

  /**
   * The hash is the polynomial reduced to 32 bits: each step computes
   * `31 * hash + char` modulo 2^32, as Java's `String.hashCode` does.
   */
  lemma {:induction false} HashIsPolynomial(city: seq<CodeUnit>)
    ensures Hash(city) == ToInt32(Polynomial(city))
  {
    if |city| > 0 {
      var prefix, ch := city[..|city| - 1], city[|city| - 1];
      HashIsPolynomial(prefix);
      var p := Polynomial(prefix);
      var h := Hash(prefix);
      var k0 := ToInt32Wraps(p);
      var k1 := ShiftLeft5Multiplies(h);
      assert ShiftLeft5(h) - h + ch == (31 * p + ch) + (-(31 * k0 + k1)) * TwoTo32;
      ToInt32Periodic(31 * p + ch, -(31 * k0 + k1));
    }
  }

  // ---------------------------------------------------------------------------
  // The readings

  datatype LightLevel = Low | Medium | Bright

  datatype WeatherOutput = WeatherOutput(temperature: int, humidity: int, lightLevel: LightLevel)

  function Abs(x: int): nat {
    if x < 0 then -x else x
  }

  /** `['Low', 'Medium', 'Bright'][index]` */
  function LightLevelAt(index: nat): LightLevel
    requires index < 3
  {
    if index == 0 then Low else if index == 1 then Medium else Bright
  }

  /** `20 + (Math.abs(hash) % 15)` */
  function Temperature(hash: int): (t: int)
    ensures 20 <= t <= 34
  {
    20 + Abs(hash) % 15
  }

  /** `40 + (Math.abs(hash * 2) % 45)` */
  function Humidity(hash: int): (h: int)
    ensures 40 <= h <= 84
  {
    40 + Abs(hash * 2) % 45
  }

  /** `Math.abs(hash * 3) % 3`, the light index as the tool computes it. */
  function LightIndexAsWritten(hash: int): (k: nat)
    ensures k < 3
  {
    Abs(hash * 3) % 3
  }

  /** The light index read off the hash itself, so that it varies from city to city. */
  function LightIndex(hash: int): (k: nat)
    ensures k < 3
  {
    Abs(hash) % 3
  }

  /** `getWeatherTool` exactly as written. */
  function WeatherAsWritten(city: seq<CodeUnit>): (w: WeatherOutput)
    ensures 20 <= w.temperature <= 34 && 40 <= w.humidity <= 84
  {
    var hash := Hash(city);
    WeatherOutput(Temperature(hash), Humidity(hash), LightLevelAt(LightIndexAsWritten(hash)))
  }

  /** `getWeatherTool` with the light index taken from the hash itself. */
  function GetWeather(city: seq<CodeUnit>): (w: WeatherOutput)
    ensures 20 <= w.temperature <= 34 && 40 <= w.humidity <= 84
    ensures w.temperature == WeatherAsWritten(city).temperature
    ensures w.humidity == WeatherAsWritten(city).humidity
  {
    var hash := Hash(city);
    WeatherOutput(Temperature(hash), Humidity(hash), LightLevelAt(LightIndex(hash)))
  }

  /** `hash * 3` is a multiple of 3, so the tool as written reports `Low` for every city. */
  lemma {:induction false} LightAlwaysLowAsWritten(city: seq<CodeUnit>)
    ensures WeatherAsWritten(city).lightLevel == Low
  {
    var hash := Hash(city);
    assert Abs(hash * 3) == 3 * Abs(hash);
    assert (3 * Abs(hash)) % 3 == 0;
  }

  /** With the light index taken from the hash, every light level occurs. */
  lemma EveryLightLevelOccurs()
    ensures GetWeather([99]).lightLevel == Low      // "c"
    ensures GetWeather([97]).lightLevel == Medium   // "a"
    ensures GetWeather([98]).lightLevel == Bright   // "b"
  {
    assert [99][..0] == [] && [97][..0] == [] && [98][..0] == [];
    assert Hash([99]) == 99 && Hash([97]) == 97 && Hash([98]) == 98;
  }

  /** An empty city reads 20 degrees, 40 % humidity and low light. */
  lemma EmptyCityWeather()
    ensures GetWeather([]) == WeatherOutput(20, 40, Low)
    ensures WeatherAsWritten([]) == WeatherOutput(20, 40, Low)
  {
  }
}

=== FILE: wrappers.dfy ===
/** Optional values, used wherever the source returns `undefined`, `null` or "nothing happened". */
module Wrappers {

  datatype Option<+T> = None | Some(value: T)

}
